=== FILE: README.md ===
# Closest pair of points and Karatsuba multiplication

This project models the algorithmic core of a course project on divide and
conquer. The core has two algorithms, each appearing in several copies across
the repository's scripts and web apps:

- **Closest pair of points.** The two-list recursion `closest_pair_recursive(px, py)`
  works on one list sorted by x and one sorted by y. It uses the brute-force base
  case `brute_force_closest` and the strip scan `strip_closest`, and is driven by
  `closest_pair_of_points`. A step-logging variant (`..._detailed`) records
  `compare`, `divide`, `strip`, `start` and `result` entries. The Flask app has its
  own single-list variant, `closest_pair(points)`, which logs one line per distance
  evaluation.
- **Karatsuba multiplication.** `karatsuba(x, y)` splits both operands at half the
  longer operand's decimal length. A logging variant, `karatsuba_detailed`,
  records base cases, splits and combines. The Flask app's `karatsuba(x, y, steps)`
  appends to a caller-supplied list. The dataset generator draws operands of a
  given digit count.

The copies of the two-list closest-pair code are identical:

- `Question_2.py:9-101`
- `Deliverable_2/Question_3.py:8-83`
- `DAA_Project_Deliverable_2/DAA_deliverable_2.py:30-100`
- `Question_4.py:27-109`, which adds the step log

The copies of `karatsuba` are identical too:

- `Question_2.py:107-130`
- `Deliverable_2/Question_3.py:85-100`
- `DAA_Project_Deliverable_2/DAA_deliverable_2.py:102-116`

Each is modelled once, and the table below cites one copy.

## How the model is built

- **Points and distances.** A point has integer coordinates. Distances are kept
  squared: `Dist` is `Finite(sq)` or `Infinite` (`float('inf')`). Python's `<` on
  distances is `Less`, exact on squares. The strip tests `abs(dx) < d` and
  `dy < d` compare a coordinate difference with a square root. They become
  `Below(v, d)`, which is exact for integers: `v < 0 || v * v < sq`.
- **Answers.** An answer is `Best(pair: Option<Pair>, dist: Dist)`. `None` plays
  the role of Python's `None` pair.
- **Sorting and comprehensions.**
  - `sorted(points, key=...)` and `strip.sort(key=...)` are an insertion sort,
    `SortBy`, proved stable like Python's (`Selection.SortStable`).
  - `sorted(points)` on tuples is the `Lexicographic` order.
  - A list comprehension `[p for p in s if cond]` is `Filter` over a first-order
    condition `Crit`.
- **Loops.** The nested loops of the brute force and the strip scan are written as
  the tail-recursive functions they denote (`Rows`/`Row`, `Scan`/`ScanRow`).
  Loop-visit order is kept exactly, so ties keep the first pair found, as Python's
  strict `<` does.
- **Reference definition.** The `Closeness` module states, independently of any
  algorithm, what a correct answer is:
  - `IsPair`: two entries of the input.
  - `LowerBound` / `PairBound`: no two entries closer.
  - `IsClosest`: `(None, inf)` below two points; otherwise a pair of entries at
    exactly the reported distance that nothing beats.

  Every search is proved against this definition.
- **Two-list recursion, minimality.** The halves `pyl`/`pyr` are filtered by x
  from `py`, so they need not hold the same points as `px[:mid]`/`px[mid:]` when
  several points share the midpoint's x. Minimality is therefore stated relative
  to a lower cut `low`:
  - `Frame(px, py, low)` says: `px` is x-sorted, `py` is y-sorted, and every point
    of `px` strictly right of the cut is also in `py`.
  - The conclusion is that no two such points are closer than the answer.
  - At the top level the cut is absent.
- **Step logs.** Logs are sequences of records (`Step`, `KStep`, `KLog`, `AppStep`)
  that carry the values the dictionaries or strings hold.

## Model

| member | source | states |
|---|---|---|
| Geometry.DistSq | Question_2.py:9-11 | The squared distance is never negative and is zero exactly when the two points coincide. |
| Geometry.DistSqSymmetric | Question_2.py:9-11 | Distance does not depend on the order of the two points. |
| Geometry.CoordinateBelowDistance | Question_2.py:36 | Neither coordinate difference exceeds the distance. This is what makes the y cut-off of the strip scan and the x cut-off of the strip sound. |
| Geometry.Update | Question_2.py:21-24 | One comparison either keeps the answer so far or replaces it with the new pair at its distance. It replaces exactly when the new distance is strictly smaller. The result is never farther than either candidate. |
| Sorting.SortBy | Question_2.py:98-99 | `sorted(points, key=...)` returns the same points, as a multiset, ordered by the key. |
| Sorting.SortSortedIsIdentity | Question_2.py:31 | Sorting a list that is already in key order returns it unchanged. The strip is built from y-ordered `py`, so `strip.sort` leaves it as it is. |
| Sorting.LexicographicSortsByX | Question_4/app.py:124 | `sorted(points)` in tuple order is also sorted by x, as the single-list search requires. |
| Selection.Filter | Question_2.py:62-63 | A comprehension keeps only points that satisfy its condition, and only points of the list it reads. |
| Selection.FilterAppend | Question_2.py:62-63 | A comprehension is order-preserving: over a concatenation it yields the concatenation of the comprehensions over the parts. |
| Selection.FilterOne | Question_2.py:62-63 | A single point is kept exactly when it satisfies the condition. Together with `FilterAppend` this fixes the result as the passing points in their input order. |
| Selection.FilterCount | Question_2.py:78 | A comprehension keeps every copy of a point that satisfies the condition and no copy of any other point. |
| Selection.FilterSorted | Question_2.py:62-63 | `pyl`, `pyr` and the strip keep the y order of `py`. |
| Selection.FilterPartition | Question_2.py:62-63 | Together `pyl` and `pyr` are a permutation of `py`: every point goes to exactly one side of `midpoint[0]`. |
| Selection.SortStable | Question_2.py:98-99 | `sorted(points, key=...)` is stable: for every key value, the points with that key come out in their input order. |
| Selection.InsertStable | Question_2.py:98-99 | Inserting a point into a key-sorted list puts it in front of the points sharing its key and keeps the order of every key's points. |
| Selection.StraddlersNear | Question_2.py:77-78 | Two points on either side of the dividing line that are closer than `d` both satisfy `abs(p[0] - midpoint[0]) < d`. |
| Closeness.LowerBoundIffPairBound | Question_2.py:89-101 | "No two indices closer than d" and "no two entries closer than d" are equivalent. |
| Closeness.LowerBoundPermutation | Question_2.py:97-101 | Reordering the points (sorting by x or y) does not change which distances are lower bounds. |
| Closeness.ClosestDistanceUnique | Question_2.py:89-101 | Any two correct answers for the same input report the same distance. |
| Closeness.DegenerateCases | Question_2.py:94-95 | Zero or one point admits only `(None, inf)`. Two copies of one point admit only that pair at distance zero. |
| BruteForce.BruteForceClosest | Question_2.py:13-26 | `(None, inf)` below two points. Otherwise the answer is the pair at some indices `i < j` at its distance: the first minimal pair in loop order, since every earlier pair is strictly farther. No pair is closer. |
| BruteForce.BruteForceIsClosest | Question_2.py:13-26 | The brute force meets the reference definition of a closest pair. |
| BruteForce.BruteForceFacts | Question_2.py:19-26 | Once both loops finish, every pair has been visited and the answer is the first minimal pair. No pair is kept below two points; some pair is kept from two points on. |
| BruteForce.PairIndexOrdered | Question_4.py:36-37 | A pair the nested loops visit earlier sits at an earlier position of the log. |
| BruteForce.AllPairs | Question_4.py:36-43 | The loops evaluate `n(n-1)/2` distances. The one for `(points[i], points[j])` sits at position `PairIndex(n, i, j)` and carries their distance. Every position belongs to some pair. |
| Strip.SkipRest | Question_2.py:36 | Once `strip[j][1] - strip[i][1]` reaches the best distance, every later point of the y-ordered strip is at least that far from `strip[i]`. The early exit loses nothing. |
| Strip.StripClosest | Question_2.py:28-43 | The result never exceeds `d`. A pair comes back exactly when one strictly closer than `d` exists; it is then two entries of the strip at the reported distance; otherwise the result is `(None, d)`. No two entries of the strip are closer than the result. |
| Strip.StripChecks | Question_4/app.py:42-50 | Each comparison the strip scan makes is of two entries of the strip and carries their distance. |
| Strip.RowShrinks | Question_2.py:35-41 | Along one row of the scan, `min_dist` never grows. |
| Strip.ScanShrinks | Question_2.py:34-41 | Along the whole scan, `min_dist` never grows. |
| Strip.StripWindow | Question_2.py:34-41 | The window of the scan, over the y-sorted strip: every comparison is of two points less than `d` apart in y, and every two points less than the final `min_dist` apart in y are compared. |
| ClosestPair.Divide | Question_2.py:57-63 | `px[:mid]` and `px[mid:]` have sizes `n//2` and `n - n//2`, both at least two and below `n`. `midpoint` is `px[n//2]`, the first point of `px[mid:]`. `pyl` holds only points with x at most `midpoint[0]`, `pyr` only points right of it. Together they are a permutation of `py`, and each stays y-sorted. |
| ClosestPair.DivideSplits | Question_2.py:59-63 | The `py` halves of the divide step are `pyl` and `pyr` taken at `px[n//2][0]`, so `SplitYInOrder` applies to them. |
| ClosestPair.SplitY | Question_2.py:62-63 | `pyl` holds only points at or left of the line and `pyr` only points strictly right of it; together they are a permutation of `py`, and each keeps the y order of a y-sorted `py`. |
| ClosestPair.SplitYInOrder | Question_2.py:62-63 | `pyl` and `pyr` are order-preserving: splitting a concatenation splits each part in turn, and a single point goes to exactly the side its x puts it on. |
| ClosestPair.Closer | Question_2.py:69-75 | The smaller of the two halves' answers is chosen. On a tie the right half's answer is taken, and the result is at most both distances. |
| ClosestPair.StripOf | Question_2.py:78 | The strip holds exactly the points of `py` within `d` of the dividing line, every copy of each. |
| ClosestPair.StripInOrder | Question_2.py:78 | The strip keeps the order of `py`: the strip of a concatenation is the concatenation of the parts' strips, and a single point is its own strip exactly when it lies within `d` of the line. |
| ClosestPair.Combine | Question_2.py:83-87 | The strip's answer is taken exactly when it found a pair strictly closer than `d`. Otherwise the halves' answer stays. The result is never farther than `d`. |
| ClosestPair.CombineDrawn | Question_2.py:69-87 | If both halves report a pair drawn from their own `px` or `py` at its distance, so does the combined answer for the whole call. |
| ClosestPair.ClosestRec | Question_2.py:45-87 | At most three points give exactly the brute force's answer on `px`. With two or more points a pair is found. No pair means an infinite distance. A reported pair is two entries of `px` or of `py`, at exactly the reported distance. |
| ClosestPair.RecAnswer | Question_2.py:57-87 | With four or more points, the answer is the combine of the strip's answer (strip at `px[n//2][0]`, half-width `min(dl, dr)`) with the smaller of the halves' answers. |
| ClosestPair.CutSorted | Question_2.py:58-67 | Cutting x-sorted `px` at `mid` gives two x-sorted halves that together hold exactly `px`. No point right of `midpoint[0]` is in `px[:mid]`, and none left of it is in `px[mid:]`. |
| ClosestPair.LeftFrame | Question_2.py:62-66 | The left recursive call on `px[:mid]` and `pyl` satisfies the same frame as its parent: sorted inputs, and `pyl` holding the points it must answer for. |
| ClosestPair.RightFrame | Question_2.py:63-67 | The right recursive call on `px[mid:]` and `pyr` satisfies the frame cut at `midpoint[0]`: `pyr` holds every point of `px[mid:]` strictly right of the midpoint. |
| ClosestPair.PairOnOneSide | Question_2.py:58-67 | A pair lying wholly left of the dividing line is a pair of `px[:mid]`; one lying wholly right is a pair of `px[mid:]`. |
| ClosestPair.StraddlerInStrip | Question_2.py:77-81 | A pair closer than `d` that straddles the dividing line lies in the strip whenever `py` holds it. |
| ClosestPair.NearPairInStrip | Question_2.py:78 | Two entries within `d` of the dividing line keep every copy in the strip, so a pair of them is a pair of the strip. |
| ClosestPair.CombineBound | Question_2.py:69-87 | The answers of the two halves and of the strip together bound every pair of the whole call. |
| ClosestPair.BoundOnePair | Question_2.py:69-87 | A single pair closer than both halves' answers either lies on one side, where that side's bound applies, or straddles the line into the strip, where the strip's bound applies. |
| ClosestPair.ClosestRecMinimal | Question_2.py:45-87 | Given an x-sorted `px`, a y-sorted `py`, and `py` holding every point of `px` right of a cut, no two such points are closer than the recursion's answer. |
| ClosestPair.CombineMinimal | Question_2.py:66-87 | For one non-base call, the bounds of both recursive answers on their halves give the bound of the call's own answer on its points. |
| ClosestPair.CombineAnswers | Question_2.py:69-87 | Two answers bounding the pairs of `px[:mid]` and of `px[mid:]`, combined with the strip's answer, bound every pair of the call's part of `px`. |
| ClosestPair.TopLevelClosest | Question_2.py:97-101 | The recursion started on the x-sorted and y-sorted copies of the input returns a correct closest pair of the input itself. |
| ClosestPair.ClosestPairOfPoints | Question_2.py:89-101 | `closest_pair_of_points` returns a correct closest pair: `(None, inf)` below two points, otherwise two entries of the input at the reported distance with none closer. |
| ClosestPair.ClosestMatchesBruteForce | Question_2.py:195-214 | The divide-and-conquer answer and the brute-force answer report the same distance. |
| ClosestTrace.BruteForceDetailed | Question_4.py:30-48 | Same answer as the plain brute force. The log has one `compare` record per unordered pair, in loop order, each carrying the pair and its distance, and nothing else. |
| ClosestTrace.ClosestRecDetailed | Question_4.py:66-109 | Same answer as the plain recursion. A base call logs exactly the brute-force comparisons. Any other call logs `divide` first (midpoint `px[n//2]`, sizes `n//2` and `n - n//2`) and `strip` last. The `strip` record's half-width is `d = min(dl, dr)` of the two halves' answers, and its size is the number of points of `py` within `d` of `midpoint[0]`; `d` is at least the answer. `divide` and `strip` records are equally many, there are no `start` or `result` records, and every comparison is of two entries of `px`. |
| ClosestTrace.DivideDetailed | Question_4.py:74-109 | One dividing call, given correct answers and well-formed logs from both halves, yields the recursion's answer. Its log is a `divide` record, then the left log, then the right log, then a `strip` record. The `strip` record has half-width `min(dl, dr)`, and its size counts the strip's points. |
| ClosestTrace.RecursionNests | Question_4.py:74-103 | A non-base call's log is exactly its `divide` record (midpoint `px[n//2]`, sizes `n//2` and `n - n//2`), then the log of the call on `(px[:mid], pyl)`, then the log of the call on `(px[mid:], pyr)`, then its `strip` record. |
| ClosestTrace.DivisionCount | Question_4.py:69-88 | A call on `n` points logs exactly `Divisions(n)` `divide` records and as many `strip` records. `Divisions(n)` is 0 for `n <= 3`, and otherwise `1 + Divisions(n//2) + Divisions(n - n//2)`. So the count depends on the number of points alone. |
| ClosestTrace.OnlyCompares | Question_4.py:69-72 | A base call adds no `divide`, `strip`, `start` or `result` record to the log. |
| ClosestTrace.LogFacts | Question_4.py:77-102 | The `divide` record, the two halves' logs and the `strip` record together keep `divide` and `strip` records equally many. They add no `start` or `result` record, and every comparison stays a pair of `px`. |
| ClosestTrace.Bracketed | Question_4.py:119-130 | Wrapping the recursion's log in one `start` and one `result` record gives exactly one of each. |
| ClosestTrace.ClosestPairDetailed | Question_4.py:111-132 | `(None, inf, [])` below two points. Otherwise the answer is the plain search's, and it is a correct closest pair. The log starts with `start` (the number of points), ends with `result` holding the answer, and has exactly one of each. |
| SingleList.AppBruteForce | Question_4/app.py:19-33 | Same answer as the plain brute force, with one distance line per unordered pair in loop order. |
| SingleList.AppStripClosest | Question_4/app.py:35-52 | Same answer as the plain strip scan, with one "Strip check" line per comparison it makes, in order: line `k` is the scan's `k`-th comparison, of two strip entries (so `Strip.StripWindow` says which pairs appear). |
| SingleList.ListStrip | Question_4/app.py:67 | The strip is taken from the list itself: it holds every copy of each entry within `d` of `mid_point[0]`, and nothing else. |
| SingleList.AdoptIfCloser | Question_4/app.py:71-72 | The strip's answer is adopted exactly when `ds < d`; otherwise the halves' answer stays. The result is at most both. |
| SingleList.AppCombineSound | Question_4/app.py:58-75 | If both halves report genuine pairs of their halves, the combined answer is a genuine pair of the whole list. |
| SingleList.AppCombineLog | Question_4/app.py:73 | `steps_l + steps_r + steps_s` mentions only pairs of the whole list. |
| SingleList.AppClosest | Question_4/app.py:54-75 | At most three points give exactly the brute force's answer and log. With two or more points a pair is found, and it is two entries of the list at the reported distance. Every log line is about two entries of the list. |
| SingleList.AppCombineBound | Question_4/app.py:64-71 | For an x-sorted list, the two halves' bounds and the strip's answer bound every pair of the list. |
| SingleList.StraddlerInListStrip | Question_4/app.py:64-69 | Two entries on either side of `points[mid]` that are closer than `d` form a pair of the strip, so the strip scan sees them. |
| SingleList.AppClosestMinimal | Question_4/app.py:54-75 | On an x-sorted list no two entries are closer than the answer. |
| SingleList.ClosestRoute | Question_4/app.py:115-132 | `closest_pair(sorted(points))` returns a correct closest pair of the uploaded points, at the same distance the two-list search reports, with a log about pairs of those points. |
| Digits.Pow10Add | Question_2.py:130 | `10**(a+b) == 10**a * 10**b`, which lets `10**(2*m)` be read as `10**m` squared. |
| Digits.DigitCountBounds | Question_2.py:117 | `len(str(n))` is the number of decimal digits: `n < 10**len` and, for positive `n`, `10**(len-1) <= n`. |
| Digits.DigitRange | Question_2.py:152-153 | A positive integer has `k` decimal digits exactly when it lies in `[10**(k-1), 10**k - 1]`. |
| Digits.OperandRange | Question_2.py:149-154 | For a digit count of at least one, both operands are drawn from a non-empty range holding exactly the positive integers with that many digits (zero, which also has one digit, is not drawn). A smaller count has no valid range. |
| Karatsuba.SplitPosition | Question_2.py:116-118 | For operands of at least two digits, `m` is at least one, below the longer operand's digit count, and at most half of it. |
| Karatsuba.Split | Question_2.py:120-122 | `divmod(v, 10**m)` rebuilds `v` as `high * 10**m + low` with `low < 10**m`. |
| Karatsuba.SplitShrinks | Question_2.py:116-122 | Splitting the longer operand leaves a non-zero high part, so `high + low` is strictly smaller than the operand. |
| Karatsuba.SmallerOperands | Question_2.py:124-127 | Each of the three recursive calls has a strictly smaller operand sum, so the recursion terminates. |
| Karatsuba.MiddleTerm | Question_2.py:126-130 | `z1 - z2 - z0` equals the sum of the cross products `low1*high2 + high1*low2`. |
| Karatsuba.Recombine | Question_2.py:129-130 | `z2 * 10**(2m) + (z1 - z2 - z0) * 10**m + z0` equals the product of the two split operands. |
| Karatsuba.Karatsuba | Question_2.py:107-130 | `karatsuba(x, y)` returns `x * y` for all integers, negative operands included (these take the base case). |
| Karatsuba.IntegerMultiplication | Question_2.py:132-134 | The wrapper returns `x * y`. |
| Karatsuba.SampleProducts | Question_2.py:222-226 | The three operand pairs of the multiplication test give their products. |
| Karatsuba.ApplyAlgorithmsVerified | DAA_Project_Deliverable_2/DAA_deliverable_2.py:272-278 | The `verified` flag reported for every operand file is true. |
| KaratsubaTrace.KaratsubaDetailed | Question_4.py:134-178 | Returns `x * y`. A base call logs exactly one `base_case` record. Any other call logs `split` first (at `m`) and `combine` last (holding the product); every record in between is at a greater depth. Splits and combines are equally many. Each split has three sub-calls, so `base_case` records number twice the splits plus one. |
| KaratsubaTrace.KaratsubaNests | Question_4.py:148-176 | A non-base call's records are exactly its `split`, then the records of the sub-calls on `(low1, low2)`, `(low1 + high1, low2 + high2)` and `(high1, high2)`, one level deeper and in that order, then its `combine` holding the product. |
| KaratsubaTrace.Recombined | Question_4.py:168 | `z2 * 10**(2m) + (z1 - z2 - z0) * 10**m + z0`, built from the three products of the split operands, is the product of the operands. |
| KaratsubaTrace.CountsAppend | Question_4.py:166-168 | Extending a log with others adds their `split` and `combine` counts. |
| KaratsubaTrace.ApiKaratsubaCorrect | Question_4.py:258-266 | `is_correct` is always true. |
| KaratsubaTrace.KaratsubaLogged | Question_4/app.py:81-102 | Returns `x * y` and only appends to the caller's list: first `karatsuba(x, y)`, then for a base call exactly one `Base multiply` line, otherwise ending with `Combine` holding the product. Every base multiply line reports a true product. |
| KaratsubaTrace.KaratsubaRoute | Question_4/app.py:135-157 | The route returns `a * b`, reports `verified` as true, and its log starts with the top-level call. |

## Left out

- Flask routes, file upload, file I/O, parsing (`parse_points_file`, `parse_integers_file`, `utils/file_parser.py`), JSON encoding, HTML templates: input/output and web framework code with no algorithmic content.
- Floating-point coordinates and `math.sqrt`: coordinates are integers and distances are compared exactly through their squares, so rounding is not modelled.
- `generate_points_dataset` and the random draws of `generate_integer_dataset`: randomness. Only the digit range the operands are drawn from is modelled (`Digits.OperandRange`).
- Timing (`time.time()`, `datetime.now()`), execution-time fields and complexity claims: clocks and performance are outside a functional model.
- The text of the log strings and dictionaries, and the `steps[:100]` truncation in responses: logs are modelled by the values they carry.
- The in-place effect of `strip.sort` on its argument: the strip is always a fresh comprehension, so nothing else observes it.
- SingleList.AppClosest: the order of its log (left half, then right half, then strip) is not stated in the contract. Only that every line is about two entries of the list is stated.
- SingleList.AppClosestMinimal: requires an x-sorted list. The app's function is only correct on such input, and the route always passes `sorted(points)`.
- ClosestPair.ClosestRec: minimality is stated separately, relative to a cut (`ClosestPair.ClosestRecMinimal`), because `pyl`/`pyr` need not match `px[:mid]`/`px[mid:]` when points share the midpoint's x.
- The test functions' printing and the six-point sample of `test_closest_pair`: the general statement `ClosestPair.ClosestMatchesBruteForce` covers the comparison the test prints.

=== FILE: brute_force.dfy ===
/** `brute_force_closest(points)` (and `brute_force` of the single-list
    variant): every pair `i < j` in index order, keeping a pair only when it
    is strictly closer than the best so far. */
module BruteForce {
  import opened Geometry
  import opened Closeness

  /** Pair `(a, b)` is visited before pair `(i, j)` by the nested loops. */
  predicate PairBefore(a: int, b: int, i: int, j: int)
  {
    a < i || (a == i && b < j)
  }

  /** The inner loop `for j in range(j, n)` of row `i`. */
  function Row(s: seq<Point>, i: int, j: int, acc: Best): Best
    requires 0 <= i < |s| && i < j <= |s|
    decreases |s| - j
  {
    if j == |s| then acc else Row(s, i, j + 1, Update(acc, s[i], s[j]))
  }

  /** The outer loop `for i in range(i, n)`. */
  function Rows(s: seq<Point>, i: int, acc: Best): Best
    requires 0 <= i <= |s|
    decreases |s| - i
  {
    if i == |s| then acc else Rows(s, i + 1, Row(s, i, i + 1, acc))
  }

  /** `acc` is `(s[a], s[b])` at its distance, and every pair visited
      before `(a, b)` is strictly farther: the first minimal pair. */
  ghost predicate FirstMinimalAt(s: seq<Point>, acc: Best, a: int, b: int)
  {
    && 0 <= a < b < |s|
    && acc == Best(Some(Pair(s[a], s[b])), Finite(DistSq(s[a], s[b])))
    && forall a', b' :: 0 <= a' < b' < |s| && PairBefore(a', b', a, b) ==>
         DistSq(s[a], s[b]) < DistSq(s[a'], s[b'])
  }

  /** What the loops know once every pair before `(i, j)` is visited. */
  ghost predicate Scanned(s: seq<Point>, acc: Best, i: int, j: int)
  {
    && (acc.pair.None? ==> acc.dist == Infinite)
    && (forall a, b :: 0 <= a < b < |s| && PairBefore(a, b, i, j) ==>
          AtMost(acc.dist, Finite(DistSq(s[a], s[b]))))
    && (acc.pair.Some? ==>
          exists a, b :: PairBefore(a, b, i, j) && FirstMinimalAt(s, acc, a, b))
  }

  lemma VisitOne(s: seq<Point>, acc: Best, i: int, j: int)
    requires 0 <= i < j < |s|
    requires Scanned(s, acc, i, j)
    ensures Scanned(s, Update(acc, s[i], s[j]), i, j + 1)
  {
    var acc' := Update(acc, s[i], s[j]);
    if acc' != acc {
      assert FirstMinimalAt(s, acc', i, j) by {
        forall a', b' | 0 <= a' < b' < |s| && PairBefore(a', b', i, j)
          ensures DistSq(s[i], s[j]) < DistSq(s[a'], s[b'])
        {
          DistOrder(acc'.dist, acc.dist, Finite(DistSq(s[a'], s[b'])));
        }
      }
      assert PairBefore(i, j, i, j + 1);
    }
    forall a, b | 0 <= a < b < |s| && PairBefore(a, b, i, j + 1)
      ensures AtMost(acc'.dist, Finite(DistSq(s[a], s[b])))
    {
      if PairBefore(a, b, i, j) {
        DistOrder(acc'.dist, acc.dist, Finite(DistSq(s[a], s[b])));
      }
    }
    if acc'.pair.Some? && acc' == acc {
      var a, b :| PairBefore(a, b, i, j) && FirstMinimalAt(s, acc, a, b);
      assert PairBefore(a, b, i, j + 1);
    }
  }

  lemma {:induction false} RowScans(s: seq<Point>, i: int, j: int, acc: Best)
    requires 0 <= i < |s| && i < j <= |s|
    requires Scanned(s, acc, i, j)
    ensures Scanned(s, Row(s, i, j, acc), i, |s|)
    decreases |s| - j
  {
    if j < |s| {
      VisitOne(s, acc, i, j);
      RowScans(s, i, j + 1, Update(acc, s[i], s[j]));
    }
  }

  /** Finishing row `i` is starting row `i + 1`. */
  lemma NextRow(s: seq<Point>, acc: Best, i: int)
    requires 0 <= i < |s|
    requires Scanned(s, acc, i, |s|)
    ensures Scanned(s, acc, i + 1, i + 2)
  {
    if acc.pair.Some? {
      var a, b :| PairBefore(a, b, i, |s|) && FirstMinimalAt(s, acc, a, b);
      assert PairBefore(a, b, i + 1, i + 2);
    }
  }

  lemma {:induction false} RowsScan(s: seq<Point>, i: int, acc: Best)
    requires 0 <= i <= |s|
    requires Scanned(s, acc, i, i + 1)
    ensures Scanned(s, Rows(s, i, acc), |s|, |s| + 1)
    decreases |s| - i
  {
    if i < |s| {
      RowScans(s, i, i + 1, acc);
      NextRow(s, Row(s, i, i + 1, acc), i);
      RowsScan(s, i + 1, Row(s, i, i + 1, acc));
    }
  }

  lemma BruteForceFacts(s: seq<Point>)
    ensures Scanned(s, Rows(s, 0, Best(None, Infinite)), |s|, |s| + 1)
    ensures |s| < 2 ==> Rows(s, 0, Best(None, Infinite)) == Best(None, Infinite)
    ensures |s| >= 2 ==> Rows(s, 0, Best(None, Infinite)).pair.Some?
  {
    var r := Rows(s, 0, Best(None, Infinite));
    RowsScan(s, 0, Best(None, Infinite));
    if |s| >= 2 {
      assert AtMost(r.dist, Finite(DistSq(s[0], s[1])));
    } else if r.pair.Some? {
      var a, b :| PairBefore(a, b, |s|, |s| + 1) && FirstMinimalAt(s, r, a, b);
    }
  }

  /** `brute_force_closest(points)`: `(None, inf)` below two points;
      otherwise the first pair `(points[i], points[j])`, `i < j`, in loop
      order that attains the minimum, at its distance, with no pair closer. */
  function BruteForceClosest(s: seq<Point>): (r: Best)
    ensures |s| < 2 ==> r == Best(None, Infinite)
    ensures |s| >= 2 ==> exists i, j :: FirstMinimalAt(s, r, i, j)
    ensures LowerBound(r.dist, s)
  {
    BruteForceFacts(s);
    Rows(s, 0, Best(None, Infinite))
  }

  /** Brute force meets the reference contract of a closest pair. */
  lemma BruteForceIsClosest(s: seq<Point>)
    ensures IsClosest(s, BruteForceClosest(s))
  {
    var r := BruteForceClosest(s);
    if |s| >= 2 {
      var i, j :| FirstMinimalAt(s, r, i, j);
      IndicesArePair(s, i, j);
    }
  }

  // ---------------------------------------------------------------------
  // The sequence of distance evaluations the loops perform, which the
  // step-logging variants record one entry per evaluation.

  function RowChecks(s: seq<Point>, i: int, j: int): seq<Check>
    requires 0 <= i < |s| && i < j <= |s|
    decreases |s| - j
  {
    if j == |s| then [] else [Check(s[i], s[j], DistSq(s[i], s[j]))] + RowChecks(s, i, j + 1)
  }

  function RowsChecks(s: seq<Point>, i: int): seq<Check>
    requires 0 <= i <= |s|
    decreases |s| - i
  {
    if i == |s| then [] else RowChecks(s, i, i + 1) + RowsChecks(s, i + 1)
  }

  /** Number of pairs in the rows before row `a`. */
  function Offset(n: nat, a: nat): nat
    requires a <= n
  {
    if a == 0 then 0 else Offset(n, a - 1) + (n - a)
  }

  /** Position of pair `(a, b)` in loop order. */
  function PairIndex(n: nat, a: nat, b: nat): int
    requires a < b <= n
  {
    Offset(n, a) + (b - a - 1)
  }

  lemma {:induction false} OffsetClosedForm(n: nat, a: nat)
    requires a <= n
    ensures 2 * Offset(n, a) == a * (2 * n - a - 1)
  {
    if a > 0 {
      OffsetClosedForm(n, a - 1);
      assert a * (2 * n - a - 1) == (a - 1) * (2 * n - (a - 1) - 1) + 2 * (n - a);
    }
  }

  lemma {:induction false} OffsetGrows(n: nat, a: nat, i: nat)
    requires a < i <= n
    ensures Offset(n, a) + (n - a - 1) <= Offset(n, i)
    decreases i - a
  {
    if a + 1 < i {
      OffsetGrows(n, a + 1, i);
    }
  }

  /** Loop order and index order agree: a pair visited earlier sits earlier. */
  lemma PairIndexOrdered(n: nat, a: nat, b: nat, i: nat, j: nat)
    requires a < b < n && i < j < n
    requires PairBefore(a, b, i, j)
    ensures PairIndex(n, a, b) < PairIndex(n, i, j)
  {
    if a < i {
      OffsetGrows(n, a, i);
    }
  }

  lemma {:induction false} RowChecksShape(s: seq<Point>, i: int, j: int)
    requires 0 <= i < |s| && i < j <= |s|
    ensures |RowChecks(s, i, j)| == |s| - j
    ensures forall b :: j <= b < |s| ==> RowChecks(s, i, j)[b - j] == Check(s[i], s[b], DistSq(s[i], s[b]))
    decreases |s| - j
  {
    if j < |s| {
      RowChecksShape(s, i, j + 1);
      var tail := RowChecks(s, i, j + 1);
      assert RowChecks(s, i, j) == [Check(s[i], s[j], DistSq(s[i], s[j]))] + tail;
      forall b | j < b < |s|
        ensures RowChecks(s, i, j)[b - j] == Check(s[i], s[b], DistSq(s[i], s[b]))
      {
        assert RowChecks(s, i, j)[b - j] == tail[b - (j + 1)];
      }
    }
  }

  lemma {:induction false} RowsChecksLength(s: seq<Point>, i: int)
    requires 0 <= i <= |s|
    ensures Offset(|s|, i) + |RowsChecks(s, i)| == Offset(|s|, |s|)
    decreases |s| - i
  {
    if i < |s| {
      RowChecksShape(s, i, i + 1);
      RowsChecksLength(s, i + 1);
    }
  }

  /** The loop order places pair `(a, b)` at position `PairIndex(n, a, b)`,
      counted within the rows from `i` on. */
  ghost predicate ChecksAt(s: seq<Point>, i: int, a: int, b: int)
    requires 0 <= i <= a < b < |s|
  {
    && Offset(|s|, i) <= PairIndex(|s|, a, b) < Offset(|s|, i) + |RowsChecks(s, i)|
    && RowsChecks(s, i)[PairIndex(|s|, a, b) - Offset(|s|, i)] == Check(s[a], s[b], DistSq(s[a], s[b]))
  }

  lemma {:induction false} RowsChecksAt(s: seq<Point>, i: int, a: int, b: int)
    requires 0 <= i <= a < b < |s|
    ensures ChecksAt(s, i, a, b)
    decreases |s| - i
  {
    if a == i {
      AtHead(s, i, b);
    } else {
      RowsChecksAt(s, i + 1, a, b);
      AtLater(s, i, a, b);
    }
  }

  /** A pair of row `i` sits in that row's part of the rows from `i` on. */
  lemma AtHead(s: seq<Point>, i: int, b: int)
    requires 0 <= i < b < |s|
    ensures ChecksAt(s, i, i, b)
  {
    RowChecksShape(s, i, i + 1);
    RowsChecksLength(s, i + 1);
    ConcatAt(RowChecks(s, i, i + 1), RowsChecks(s, i + 1), b - (i + 1));
  }

  /** A pair of a later row keeps its place once row `i` is put in front. */
  lemma AtLater(s: seq<Point>, i: int, a: int, b: int)
    requires 0 <= i < a < b < |s|
    requires ChecksAt(s, i + 1, a, b)
    ensures ChecksAt(s, i, a, b)
  {
    RowChecksShape(s, i, i + 1);
    var row := RowChecks(s, i, i + 1);
    assert Offset(|s|, i + 1) == Offset(|s|, i) + |row|;
    ConcatAt(row, RowsChecks(s, i + 1), PairIndex(|s|, a, b) - Offset(|s|, i));
  }

  lemma ConcatAt(x: seq<Check>, y: seq<Check>, k: int)
    requires 0 <= k < |x| + |y|
    ensures (x + y)[k] == if k < |x| then x[k] else y[k - |x|]
  {
  }

  /** Position `k` of the loop order belongs to some pair `(a, b)`. */
  ghost predicate PairPosition(n: nat, k: int)
  {
    exists a, b :: 0 <= a < b < n && k == PairIndex(n, a, b)
  }

  lemma {:induction false} RowsChecksCovered(s: seq<Point>, i: int, k: int)
    requires 0 <= i <= |s|
    requires Offset(|s|, i) <= k < Offset(|s|, i) + |RowsChecks(s, i)|
    ensures PairPosition(|s|, k)
    decreases |s| - i
  {
    var n := |s|;
    RowChecksShape(s, i, i + 1);
    var row := RowChecks(s, i, i + 1);
    assert Offset(n, i + 1) == Offset(n, i) + |row|;
    if k < Offset(n, i + 1) {
      assert k == PairIndex(n, i, i + 1 + (k - Offset(n, i)));
    } else {
      RowsChecksCovered(s, i + 1, k);
    }
  }

  /** The distance evaluations of `brute_force_closest`: `n(n-1)/2` of them,
      the one for pair `(i, j)` at position `PairIndex(n, i, j)`, each
      carrying that pair's distance, and no other entries. */
  function AllPairs(s: seq<Point>): (r: seq<Check>)
    ensures 2 * |r| == |s| * (|s| - 1)
    ensures forall a, b {:trigger PairIndex(|s|, a, b)} :: 0 <= a < b < |s| ==>
      PairIndex(|s|, a, b) < |r| && r[PairIndex(|s|, a, b)] == Check(s[a], s[b], DistSq(s[a], s[b]))
    ensures forall k :: 0 <= k < |r| ==> PairPosition(|s|, k)
  {
    RowsChecksLength(s, 0);
    OffsetClosedForm(|s|, |s|);
    forall a, b | 0 <= a < b < |s|
      ensures PairIndex(|s|, a, b) < |RowsChecks(s, 0)|
      ensures RowsChecks(s, 0)[PairIndex(|s|, a, b)] == Check(s[a], s[b], DistSq(s[a], s[b]))
    {
      RowsChecksAt(s, 0, a, b);
    }
    forall k | 0 <= k < |RowsChecks(s, 0)|
      ensures PairPosition(|s|, k)
    {
      RowsChecksCovered(s, 0, k);
    }
    RowsChecks(s, 0)
  }
}

=== FILE: closeness.dfy ===
/** What a correct closest-pair answer is, stated independently of any
    algorithm: the reference every search in the repository is held to. */
module Closeness {
  import opened Geometry

  /** `p` and `q` are two distinct entries of `s` (they may be equal points
      when `s` holds duplicates). */
  ghost predicate IsPair(s: seq<Point>, p: Point, q: Point)
  {
    multiset{p, q} <= multiset(s)
  }

  /** No two entries of `s`, taken in index order, are strictly closer than `d`. */
  ghost predicate LowerBound(d: Dist, s: seq<Point>)
  {
    forall i, j :: 0 <= i < j < |s| ==> AtMost(d, Finite(DistSq(s[i], s[j])))
  }

  /** The same bound stated on entries rather than indices, so that it moves
      along multiset inclusion. */
  ghost predicate PairBound(d: Dist, s: seq<Point>)
  {
    forall p, q :: IsPair(s, p, q) ==> AtMost(d, Finite(DistSq(p, q)))
  }

  /** The answer `closest_pair_of_points` promises: `(None, inf)` below two
      points; otherwise two entries of the input at exactly the reported
      distance, with no pair of entries strictly closer. */
  ghost predicate IsClosest(s: seq<Point>, r: Best)
  {
    if |s| < 2 then
      r == Best(None, Infinite)
    else
      && r.pair.Some?
      && IsPair(s, r.pair.value.p, r.pair.value.q)
      && r.dist == Finite(DistSq(r.pair.value.p, r.pair.value.q))
      && LowerBound(r.dist, s)
  }

  /** Two entries at indices `i < j` form a pair of `s`. */
  lemma {:induction false} IndicesArePair(s: seq<Point>, i: int, j: int)
    requires 0 <= i < j < |s|
    ensures IsPair(s, s[i], s[j])
  {
    assert s == [s[0]] + s[1..];
    if i == 0 {
      assert s[1..][j - 1] == s[j];
      assert s[j] in multiset(s[1..]);
    } else {
      IndicesArePair(s[1..], i - 1, j - 1);
    }
  }

  /** A pair of `s` sits at two indices `i < j`, in one order or the other. */
  lemma {:induction false} PairHasIndices(s: seq<Point>, p: Point, q: Point) returns (i: int, j: int)
    requires IsPair(s, p, q)
    ensures 0 <= i < j < |s|
    ensures (s[i] == p && s[j] == q) || (s[i] == q && s[j] == p)
  {
    assert s == [s[0]] + s[1..];
    var t := s[1..];
    if s[0] == p {
      assert multiset{q} <= multiset(t) by {
        assert multiset(s) == multiset{p} + multiset(t);
      }
      assert q in multiset(t);
      var k :| 0 <= k < |t| && t[k] == q;
      i, j := 0, k + 1;
    } else if s[0] == q {
      assert multiset{p} <= multiset(t) by {
        assert multiset(s) == multiset{q} + multiset(t);
      }
      assert p in multiset(t);
      var k :| 0 <= k < |t| && t[k] == p;
      i, j := 0, k + 1;
    } else {
      assert multiset{p, q} <= multiset(t) by {
        assert multiset(s) == multiset{s[0]} + multiset(t);
        forall z | z in multiset{p, q}
          ensures multiset{p, q}[z] <= multiset(t)[z]
        {
        }
      }
      var i', j' := PairHasIndices(t, p, q);
      i, j := i' + 1, j' + 1;
    }
  }

  /** The index form and the entry form of the bound say the same thing. */
  lemma LowerBoundIffPairBound(d: Dist, s: seq<Point>)
    ensures LowerBound(d, s) <==> PairBound(d, s)
  {
    if LowerBound(d, s) {
      forall p, q | IsPair(s, p, q)
        ensures AtMost(d, Finite(DistSq(p, q)))
      {
        var i, j := PairHasIndices(s, p, q);
        DistSqSymmetric(p, q);
      }
    }
    if PairBound(d, s) {
      forall i, j | 0 <= i < j < |s|
        ensures AtMost(d, Finite(DistSq(s[i], s[j])))
      {
        IndicesArePair(s, i, j);
      }
    }
  }

  /** Pairs, and hence the bound, carry over from a sub-multiset. */
  lemma PairBoundSubset(d: Dist, a: seq<Point>, b: seq<Point>)
    requires multiset(a) <= multiset(b)
    requires PairBound(d, b)
    ensures PairBound(d, a)
  {
  }

  /** A pair moves to any list holding at least as many copies of each of
      its two points. */
  lemma PairMoves(a: seq<Point>, b: seq<Point>, p: Point, q: Point)
    requires IsPair(a, p, q)
    requires multiset(a)[p] <= multiset(b)[p] && multiset(a)[q] <= multiset(b)[q]
    ensures IsPair(b, p, q)
  {
    forall z
      ensures multiset{p, q}[z] <= multiset(b)[z]
    {
      if z != p && z != q {
        assert multiset{p, q}[z] == 0;
      }
    }
  }

  /** The bound depends only on the multiset of points. */
  lemma LowerBoundPermutation(d: Dist, a: seq<Point>, b: seq<Point>)
    requires multiset(a) == multiset(b)
    requires LowerBound(d, a)
    ensures LowerBound(d, b)
  {
    LowerBoundIffPairBound(d, a);
    LowerBoundIffPairBound(d, b);
  }

  /** Every correct answer reports the same distance: the closest-pair
      distance is determined by the input alone. */
  lemma ClosestDistanceUnique(s: seq<Point>, r1: Best, r2: Best)
    requires IsClosest(s, r1) && IsClosest(s, r2)
    ensures r1.dist == r2.dist
  {
    if |s| >= 2 {
      LowerBoundIffPairBound(r1.dist, s);
      LowerBoundIffPairBound(r2.dist, s);
      assert AtMost(r1.dist, r2.dist);
      assert AtMost(r2.dist, r1.dist);
    }
  }

  /** The degenerate answers: `(None, inf)` for zero or one point, and two
      copies of one point at distance zero. */
  lemma DegenerateCases(p: Point, r: Best)
    ensures IsClosest([], r) <==> r == Best(None, Infinite)
    ensures IsClosest([p], r) <==> r == Best(None, Infinite)
    ensures IsClosest([p, p], r) <==> r == Best(Some(Pair(p, p)), Finite(0))
  {
    if r == Best(Some(Pair(p, p)), Finite(0)) {
      assert multiset{p, p} == multiset([p, p]);
    }
    if IsClosest([p, p], r) {
      var a, b := r.pair.value.p, r.pair.value.q;
      assert a in multiset([p, p]) && b in multiset([p, p]);
      assert a == p && b == p;
    }
  }
}

=== FILE: closest_pair.dfy ===
/** `closest_pair_recursive(px, py)` and `closest_pair_of_points(points)`:
    the two-list divide and conquer, where `px` is ordered by x and `py` by
    y. The halves of `py` are split off by comparing with the x of the
    midpoint, so a point sharing the midpoint's x goes to the left `py`
    half even when it sits in the right `px` half; the two lists handed to
    a recursive call need not hold the same points. */
module ClosestPair {
  import opened Geometry
  import opened Sorting
  import opened Selection
  import opened Closeness
  import opened BruteForce
  import opened Strip

  /** The divide step: `mid = n // 2`, `midpoint = px[mid]`, the halves
      `px[:mid]` and `px[mid:]`, and the comprehensions `pyl` and `pyr`. */
  datatype Division = Division(
    midpoint: Point,
    leftX: seq<Point>, rightX: seq<Point>,
    leftY: seq<Point>, rightY: seq<Point>)

  lemma HalvesKeepOrder(py: seq<Point>, v: int)
    ensures SortedBy(py, ByY) ==>
      SortedBy(Filter(py, AtMostX(v)), ByY) && SortedBy(Filter(py, AboveX(v)), ByY)
  {
    if SortedBy(py, ByY) {
      FilterSorted(py, AtMostX(v), ByY);
      FilterSorted(py, AboveX(v), ByY);
    }
  }

  /** Both halves hold at least two points, so each recursive call has a
      shorter `px`. Every point of `py` lands in exactly one of `pyl` and
      `pyr`, ties on the midpoint's x going to `pyl`; both are `SplitY`
      of `py` (`DivideSplits`) and so keep its order (`SplitYInOrder`). */
  function Divide(px: seq<Point>, py: seq<Point>): (dv: Division)
    requires |px| >= 4
    ensures |dv.leftX| == |px| / 2 && |dv.leftX| + |dv.rightX| == |px|
    ensures 2 <= |dv.leftX| < |px| && 2 <= |dv.rightX| < |px|
    ensures dv.leftX + dv.rightX == px && dv.midpoint == dv.rightX[0]
    ensures forall i :: 0 <= i < |dv.leftY| ==> dv.leftY[i].x <= dv.midpoint.x
    ensures forall i :: 0 <= i < |dv.rightY| ==> dv.rightY[i].x > dv.midpoint.x
    ensures multiset(dv.leftY) + multiset(dv.rightY) == multiset(py)
    ensures SortedBy(py, ByY) ==> SortedBy(dv.leftY, ByY) && SortedBy(dv.rightY, ByY)
  {
    var mid := |px| / 2;
    var ys := SplitY(py, px[mid].x);
    assert px[..mid] + px[mid..] == px;
    Division(px[mid], px[..mid], px[mid..], ys.0, ys.1)
  }

  /** `pyl` and `pyr`: the points of `py` on either side of the line
      `x = v`, each in its order in `py`. */
  function SplitY(py: seq<Point>, v: int): (h: (seq<Point>, seq<Point>))
    ensures forall i :: 0 <= i < |h.0| ==> h.0[i].x <= v
    ensures forall i :: 0 <= i < |h.1| ==> h.1[i].x > v
    ensures multiset(h.0) + multiset(h.1) == multiset(py)
    ensures SortedBy(py, ByY) ==> SortedBy(h.0, ByY) && SortedBy(h.1, ByY)
  {
    FilterPartition(py, v);
    HalvesKeepOrder(py, v);
    (Filter(py, AtMostX(v)), Filter(py, AboveX(v)))
  }

  /** The `py` halves of the divide step are `pyl` and `pyr` taken at the
      midpoint's x. */
  lemma DivideSplits(px: seq<Point>, py: seq<Point>)
    requires |px| >= 4
    ensures Divide(px, py).midpoint == px[|px| / 2]
    ensures (Divide(px, py).leftY, Divide(px, py).rightY) == SplitY(py, px[|px| / 2].x)
  {
  }

  /** `pyl` and `pyr` keep the order of `py`: splitting a concatenation
      splits each part in turn, and a single point goes to exactly the
      side its x puts it on. */
  lemma SplitYInOrder(a: seq<Point>, b: seq<Point>, p: Point, v: int)
    ensures SplitY(a + b, v) == (SplitY(a, v).0 + SplitY(b, v).0, SplitY(a, v).1 + SplitY(b, v).1)
    ensures SplitY([p], v) == if p.x <= v then ([p], []) else ([], [p])
  {
    FilterAppend(a, b, AtMostX(v));
    FilterAppend(a, b, AboveX(v));
    FilterOne(p, AtMostX(v));
    FilterOne(p, AboveX(v));
  }

  /** `if dl < dr: (pair_left, dl) else: (pair_right, dr)`: the smaller of
      the two answers, the right one on a tie. */
  function Closer(l: Best, r: Best): (b: Best)
    ensures b == l || b == r
    ensures AtMost(b.dist, l.dist) && AtMost(b.dist, r.dist)
    ensures b == l <==> Less(l.dist, r.dist) || l == r
  {
    DistOrder(l.dist, r.dist, r.dist);
    if Less(l.dist, r.dist) then l else r
  }

  /** `if strip_pair and strip_dist < d: (strip_pair, strip_dist) else:
      (min_pair, d)`: the strip answer is adopted only when it holds a
      pair strictly closer than the halves' answer. */
  function Combine(s: Best, best: Best): (r: Best)
    ensures r == s || r == best
    ensures r == s && s != best ==> s.pair.Some? && Less(s.dist, best.dist)
    ensures s.pair.Some? && Less(s.dist, best.dist) ==> r == s
    ensures AtMost(r.dist, best.dist)
  {
    DistOrder(s.dist, best.dist, best.dist);
    if s.pair.Some? && Less(s.dist, best.dist) then s else best
  }

  /** The strip: the entries of `py`, in `py` order, whose x lies strictly
      within `d` of the dividing line. */
  function StripOf(py: seq<Point>, v: int, d: Dist): (strip: seq<Point>)
    ensures multiset(strip) <= multiset(py)
    ensures forall i :: 0 <= i < |strip| ==> Below(Abs(strip[i].x - v), d)
    ensures forall z :: multiset(strip)[z] == if Below(Abs(z.x - v), d) then multiset(py)[z] else 0
  {
    NearCount(py, v, d);
    Filter(py, NearX(v, d))
  }

  lemma NearCount(py: seq<Point>, v: int, d: Dist)
    ensures forall z :: multiset(Filter(py, NearX(v, d)))[z] == if Below(Abs(z.x - v), d) then multiset(py)[z] else 0
  {
    forall z
      ensures multiset(Filter(py, NearX(v, d)))[z] == if Below(Abs(z.x - v), d) then multiset(py)[z] else 0
    {
      FilterCount(py, NearX(v, d), z);
      assert Holds(NearX(v, d), z) == Below(Abs(z.x - v), d);
    }
  }

  /** The strip keeps the order of `py`: the strip of a concatenation is
      the concatenation of the parts' strips, and a single point is its
      own strip exactly when it lies within `d` of the line. */
  lemma StripInOrder(a: seq<Point>, b: seq<Point>, p: Point, v: int, d: Dist)
    ensures StripOf(a + b, v, d) == StripOf(a, v, d) + StripOf(b, v, d)
    ensures StripOf([p], v, d) == if Below(Abs(p.x - v), d) then [p] else []
  {
    FilterAppend(a, b, NearX(v, d));
    FilterOne(p, NearX(v, d));
  }

  /** The reported pair, if any, is two entries of `px` or of `py` at
      exactly the reported distance. */
  ghost predicate Drawn(px: seq<Point>, py: seq<Point>, r: Best)
  {
    r.pair.Some? ==>
      && (IsPair(px, r.pair.value.p, r.pair.value.q) || IsPair(py, r.pair.value.p, r.pair.value.q))
      && r.dist == Finite(DistSq(r.pair.value.p, r.pair.value.q))
  }

  lemma DrawnFrom(a: seq<Point>, b: seq<Point>, px: seq<Point>, py: seq<Point>, r: Best)
    requires Drawn(a, b, r)
    requires multiset(a) <= multiset(px) && multiset(b) <= multiset(py)
    ensures Drawn(px, py, r)
  {
  }

  /** Combining two sound answers with the strip's yields a sound answer. */
  lemma CombineDrawn(px: seq<Point>, py: seq<Point>, l: Best, rr: Best)
    requires |px| >= 4
    requires Drawn(Divide(px, py).leftX, Divide(px, py).leftY, l)
    requires Drawn(Divide(px, py).rightX, Divide(px, py).rightY, rr)
    ensures
      var best := Closer(l, rr);
      Drawn(px, py, Combine(StripClosest(StripOf(py, Divide(px, py).midpoint.x, best.dist), best.dist), best))
  {
    var dv := Divide(px, py);
    var best := Closer(l, rr);
    var strip := StripOf(py, dv.midpoint.x, best.dist);
    var s := StripClosest(strip, best.dist);
    assert multiset(px) == multiset(dv.leftX) + multiset(dv.rightX) by {
      assert px == dv.leftX + dv.rightX;
    }
    if Combine(s, best) == s && s != best {
      assert multiset(strip) <= multiset(py);
      DrawnFrom(px, strip, px, py, s);
    } else if best == l {
      DrawnFrom(dv.leftX, dv.leftY, px, py, l);
    } else {
      DrawnFrom(dv.rightX, dv.rightY, px, py, rr);
    }
  }

  /** At most three points go to the brute force on `px`. Soundness: at
      least two points yield a pair; a pair comes with a finite distance
      and no pair with an infinite one; the pair is two entries of `px` or
      of `py` (of both, at the top level) at exactly the reported distance. */
  function ClosestRec(px: seq<Point>, py: seq<Point>): (r: Best)
    ensures |px| <= 3 ==> r == BruteForceClosest(px)
    ensures |px| >= 2 ==> r.pair.Some?
    ensures r.pair.None? <==> r.dist == Infinite
    ensures r.pair.Some? ==>
      && (IsPair(px, r.pair.value.p, r.pair.value.q) || IsPair(py, r.pair.value.p, r.pair.value.q))
      && r.dist == Finite(DistSq(r.pair.value.p, r.pair.value.q))
    decreases |px|
  {
    if |px| <= 3 then
      BruteForceIsClosest(px);
      BruteForceClosest(px)
    else
      var dv := Divide(px, py);
      var l := ClosestRec(dv.leftX, dv.leftY);
      var rr := ClosestRec(dv.rightX, dv.rightY);
      var best := Closer(l, rr);
      var s := StripClosest(StripOf(py, dv.midpoint.x, best.dist), best.dist);
      CombineDrawn(px, py, l, rr);
      CombineHasPair(s, l, rr);
      Combine(s, best)
  }

  /** One dividing step of the plain recursion, unfolded, with the
      dividing line at `px[n//2]`. */
  lemma RecAnswer(px: seq<Point>, py: seq<Point>)
    requires |px| >= 4
    ensures
      var dv := Divide(px, py);
      var best := Closer(ClosestRec(dv.leftX, dv.leftY), ClosestRec(dv.rightX, dv.rightY));
      ClosestRec(px, py) == Combine(StripClosest(StripOf(py, px[|px| / 2].x, best.dist), best.dist), best)
  {
    var dv := Divide(px, py);
    assert dv.midpoint == px[|px| / 2] by {
      assert dv.leftX + dv.rightX == px;
      assert dv.rightX == px[|px| / 2..];
    }
  }

  /** Once both halves have a pair, so has the combined answer. */
  lemma CombineHasPair(s: Best, l: Best, rr: Best)
    requires l.pair.Some? && rr.pair.Some?
    ensures Combine(s, Closer(l, rr)).pair.Some?
  {
  }

  // ---------------------------------------------------------------------
  // Minimality.

  /** The part of `px` a call answers for: everything, or only the points
      strictly right of an ancestor's dividing line. */
  function Cut(low: Option<int>): Crit
  {
    if low.None? then Anywhere else AboveX(low.value)
  }

  /** What every call of the recursion may rely on: `px` ordered by x and
      `py` by y, every point of `px` at or right of the dividing line
      `low` the call lies right of, and `py` holding every point of `px`
      strictly right of that line. */
  ghost predicate Frame(px: seq<Point>, py: seq<Point>, low: Option<int>)
  {
    && SortedBy(px, ByX)
    && SortedBy(py, ByY)
    && (low.Some? ==> forall i :: 0 <= i < |px| ==> px[i].x >= low.value)
    && multiset(Filter(px, Cut(low))) <= multiset(py)
  }

  /** Cutting an x-ordered list at `mid`: both parts stay ordered, the
      first lies at or left of `px[mid]` and the second at or right of it,
      so no point strictly right of `px[mid]` is in the first part and no
      point strictly left of it is in the second. */
  lemma CutSorted(px: seq<Point>, mid: int)
    requires SortedBy(px, ByX) && 0 <= mid < |px|
    ensures SortedBy(px[..mid], ByX) && SortedBy(px[mid..], ByX)
    ensures forall i :: 0 <= i < |px[mid..]| ==> px[mid..][i].x >= px[mid].x
    ensures forall z: Point :: z.x > px[mid].x ==> multiset(px[..mid])[z] == 0
    ensures forall z: Point :: z.x < px[mid].x ==> multiset(px[mid..])[z] == 0
    ensures multiset(px) == multiset(px[..mid]) + multiset(px[mid..])
  {
    assert SortedBy(px[..mid], ByX);
    assert SortedBy(px[mid..], ByX);
    forall i | 0 <= i < |px[mid..]|
      ensures px[mid..][i].x >= px[mid].x
    {
      assert px[mid..][i] == px[mid + i];
    }
    forall i | 0 <= i < |px[..mid]|
      ensures px[..mid][i].x <= px[mid].x
    {
      assert Le(px[i], px[mid], ByX);
    }
    assert px == px[..mid] + px[mid..];
  }

  /** `pyl` holds every copy of a point of `px[:mid]` that `py` must
      supply. */
  lemma LeftCounts(px: seq<Point>, py: seq<Point>, low: Option<int>, mid: int)
    requires 0 <= mid < |px|
    requires multiset(px) == multiset(px[..mid]) + multiset(px[mid..])
    requires forall z: Point :: z.x > px[mid].x ==> multiset(px[..mid])[z] == 0
    requires multiset(Filter(px, Cut(low))) <= multiset(py)
    ensures multiset(Filter(px[..mid], Cut(low))) <= multiset(Filter(py, AtMostX(px[mid].x)))
  {
    var v := px[mid].x;
    forall z
      ensures multiset(Filter(px[..mid], Cut(low)))[z] <= multiset(Filter(py, AtMostX(v)))[z]
    {
      FilterCount(px[..mid], Cut(low), z);
      FilterCount(px, Cut(low), z);
      FilterCount(py, AtMostX(v), z);
    }
  }

  /** `pyr` holds every copy of a point of `px[mid:]` strictly right of
      the midpoint. */
  lemma RightCounts(px: seq<Point>, py: seq<Point>, low: Option<int>, mid: int)
    requires 0 <= mid < |px|
    requires multiset(px) == multiset(px[..mid]) + multiset(px[mid..])
    requires low.Some? ==> px[mid].x >= low.value
    requires multiset(Filter(px, Cut(low))) <= multiset(py)
    ensures multiset(Filter(px[mid..], AboveX(px[mid].x))) <= multiset(Filter(py, AboveX(px[mid].x)))
  {
    var v := px[mid].x;
    forall z
      ensures multiset(Filter(px[mid..], AboveX(v)))[z] <= multiset(Filter(py, AboveX(v)))[z]
    {
      FilterCount(px[mid..], AboveX(v), z);
      FilterCount(px, Cut(low), z);
      FilterCount(py, AboveX(v), z);
      if z.x > v {
        assert Holds(Cut(low), z);
      }
    }
  }

  /** The left call keeps its parent's frame. */
  lemma LeftFrame(px: seq<Point>, py: seq<Point>, low: Option<int>, mid: int)
    requires 0 <= mid < |px|
    requires Frame(px, py, low)
    ensures Frame(px[..mid], Filter(py, AtMostX(px[mid].x)), low)
  {
    CutSorted(px, mid);
    LeftCounts(px, py, low, mid);
    FilterSorted(py, AtMostX(px[mid].x), ByY);
  }

  /** The right call lies right of its parent's dividing line. */
  lemma RightFrame(px: seq<Point>, py: seq<Point>, low: Option<int>, mid: int)
    requires 0 <= mid < |px|
    requires Frame(px, py, low)
    ensures Frame(px[mid..], Filter(py, AboveX(px[mid].x)), Some(px[mid].x))
  {
    CutSorted(px, mid);
    assert low.Some? ==> px[mid].x >= low.value;
    RightCounts(px, py, low, mid);
    FilterSorted(py, AboveX(px[mid].x), ByY);
  }

  /** A pair of `Filter(px, Cut(low))` lying wholly on one side of the
      dividing line is a pair of that side's half. */
  lemma PairOnOneSide(px: seq<Point>, low: Option<int>, mid: int, p: Point, q: Point)
    requires 0 <= mid < |px|
    requires multiset(px) == multiset(px[..mid]) + multiset(px[mid..])
    requires forall z: Point :: z.x > px[mid].x ==> multiset(px[..mid])[z] == 0
    requires forall z: Point :: z.x < px[mid].x ==> multiset(px[mid..])[z] == 0
    requires IsPair(Filter(px, Cut(low)), p, q)
    ensures p.x < px[mid].x && q.x < px[mid].x ==> IsPair(Filter(px[..mid], Cut(low)), p, q)
    ensures p.x > px[mid].x && q.x > px[mid].x ==> IsPair(Filter(px[mid..], AboveX(px[mid].x)), p, q)
  {
    var v := px[mid].x;
    FilterCount(px, Cut(low), p);
    FilterCount(px, Cut(low), q);
    if p.x < v && q.x < v {
      FilterCount(px[..mid], Cut(low), p);
      FilterCount(px[..mid], Cut(low), q);
      PairMoves(Filter(px, Cut(low)), Filter(px[..mid], Cut(low)), p, q);
    }
    if p.x > v && q.x > v {
      FilterCount(px[mid..], AboveX(v), p);
      FilterCount(px[mid..], AboveX(v), q);
      PairMoves(Filter(px, Cut(low)), Filter(px[mid..], AboveX(v)), p, q);
    }
  }

  /** Two points closer than `d` on either side of the dividing line are
      both in the strip, provided `py` holds them. */
  lemma StraddlerInStrip(pp: seq<Point>, py: seq<Point>, v: int, d: Dist, p: Point, q: Point)
    requires IsPair(pp, p, q) && multiset(pp) <= multiset(py)
    requires p.x <= v <= q.x || q.x <= v <= p.x
    requires Less(Finite(DistSq(p, q)), d)
    ensures IsPair(StripOf(py, v, d), p, q)
  {
    if p.x <= v <= q.x {
      StraddlersNear(p, q, v, d);
    } else {
      DistSqSymmetric(p, q);
      StraddlersNear(q, p, v, d);
    }
    NearPairInStrip(pp, py, v, d, p, q);
  }

  /** Two entries near the line keep all their copies in the strip. */
  lemma NearPairInStrip(pp: seq<Point>, py: seq<Point>, v: int, d: Dist, p: Point, q: Point)
    requires IsPair(pp, p, q) && multiset(pp) <= multiset(py)
    requires Holds(NearX(v, d), p) && Holds(NearX(v, d), q)
    ensures IsPair(StripOf(py, v, d), p, q)
  {
    var strip := StripOf(py, v, d);
    assert multiset(strip)[p] == multiset(py)[p];
    assert multiset(strip)[q] == multiset(py)[q];
    PairMoves(pp, strip, p, q);
  }

  /** The combine step: bounds for both halves and for the strip give a
      bound for the whole call, because any pair closer than both halves'
      answers either lies on one side (and is bounded there) or straddles
      the line (and is in the strip). */
  lemma CombineBound(
    px: seq<Point>, py: seq<Point>, low: Option<int>, mid: int,
    l: Dist, rr: Dist, best: Dist, d: Dist)
    requires 0 <= mid < |px|
    requires multiset(px) == multiset(px[..mid]) + multiset(px[mid..])
    requires forall z: Point :: z.x > px[mid].x ==> multiset(px[..mid])[z] == 0
    requires forall z: Point :: z.x < px[mid].x ==> multiset(px[mid..])[z] == 0
    requires multiset(Filter(px, Cut(low))) <= multiset(py)
    requires PairBound(l, Filter(px[..mid], Cut(low)))
    requires PairBound(rr, Filter(px[mid..], AboveX(px[mid].x)))
    requires AtMost(best, l) && AtMost(best, rr)
    requires PairBound(d, StripOf(py, px[mid].x, best)) && AtMost(d, best)
    ensures PairBound(d, Filter(px, Cut(low)))
  {
    var v := px[mid].x;
    forall p, q | IsPair(Filter(px, Cut(low)), p, q)
      ensures AtMost(d, Finite(DistSq(p, q)))
    {
      PairOnOneSide(px, low, mid, p, q);
      BoundOnePair(Filter(px, Cut(low)), Filter(px[..mid], Cut(low)), Filter(px[mid..], AboveX(v)), py, v, l, rr, best, d, p, q);
    }
  }

  /** One pair of the combine step: closer than both halves' answers, it
      either lies on one side or straddles the line into the strip. */
  lemma BoundOnePair(
    all: seq<Point>, left: seq<Point>, right: seq<Point>, py: seq<Point>, v: int,
    l: Dist, rr: Dist, best: Dist, d: Dist, p: Point, q: Point)
    requires IsPair(all, p, q) && multiset(all) <= multiset(py)
    requires p.x < v && q.x < v ==> IsPair(left, p, q)
    requires p.x > v && q.x > v ==> IsPair(right, p, q)
    requires PairBound(l, left) && PairBound(rr, right)
    requires AtMost(best, l) && AtMost(best, rr)
    requires PairBound(d, StripOf(py, v, best)) && AtMost(d, best)
    ensures AtMost(d, Finite(DistSq(p, q)))
  {
    var e := Finite(DistSq(p, q));
    DistOrder(d, best, e);
    if Less(e, best) {
      if p.x <= v <= q.x || q.x <= v <= p.x {
        StraddlerInStrip(all, py, v, best, p, q);
      } else if p.x < v {
        DistOrder(best, l, e);
      } else {
        DistOrder(best, rr, e);
      }
    }
  }

  /** Minimality: no two points of `px` right of `low` are strictly closer
      than the answer. */
  lemma {:induction false} ClosestRecMinimal(px: seq<Point>, py: seq<Point>, low: Option<int>)
    requires Frame(px, py, low)
    ensures PairBound(ClosestRec(px, py).dist, Filter(px, Cut(low)))
    decreases |px|
  {
    var r := ClosestRec(px, py);
    if |px| <= 3 {
      LowerBoundIffPairBound(r.dist, px);
      PairBoundSubset(r.dist, Filter(px, Cut(low)), px);
    } else {
      var dv := Divide(px, py);
      var mid := |px| / 2;
      var v := px[mid].x;
      assert dv.leftX == px[..mid] && dv.rightX == px[mid..] && dv.midpoint == px[mid];
      assert dv.leftY == Filter(py, AtMostX(v)) && dv.rightY == Filter(py, AboveX(v));
      LeftFrame(px, py, low, mid);
      RightFrame(px, py, low, mid);
      ClosestRecMinimal(dv.leftX, dv.leftY, low);
      ClosestRecMinimal(dv.rightX, dv.rightY, Some(v));
      CombineMinimal(px, py, low);
    }
  }

  /** One non-base call: the bounds of both recursive answers give the
      bound of the call's own answer. */
  lemma CombineMinimal(px: seq<Point>, py: seq<Point>, low: Option<int>)
    requires |px| >= 4 && Frame(px, py, low)
    requires
      var dv := Divide(px, py);
      && PairBound(ClosestRec(dv.leftX, dv.leftY).dist, Filter(dv.leftX, Cut(low)))
      && PairBound(ClosestRec(dv.rightX, dv.rightY).dist, Filter(dv.rightX, Cut(Some(dv.midpoint.x))))
    ensures PairBound(ClosestRec(px, py).dist, Filter(px, Cut(low)))
  {
    var dv := Divide(px, py);
    DivideAt(px, py);
    RecAnswer(px, py);
    CombineAnswers(px, py, low, ClosestRec(dv.leftX, dv.leftY), ClosestRec(dv.rightX, dv.rightY), ClosestRec(px, py));
  }

  /** The divide step cuts `px` at `n // 2`. */
  lemma DivideAt(px: seq<Point>, py: seq<Point>)
    requires |px| >= 4
    ensures Divide(px, py).leftX == px[..|px| / 2] && Divide(px, py).rightX == px[|px| / 2..]
    ensures Divide(px, py).midpoint == px[|px| / 2]
  {
    var dv := Divide(px, py);
    assert dv.leftX + dv.rightX == px;
  }

  /** The combine step on two answers bounding their halves bounds the
      call's part of `px`. */
  lemma CombineAnswers(px: seq<Point>, py: seq<Point>, low: Option<int>, l: Best, rr: Best, r: Best)
    requires |px| >= 4 && Frame(px, py, low)
    requires PairBound(l.dist, Filter(px[..|px| / 2], Cut(low)))
    requires PairBound(rr.dist, Filter(px[|px| / 2..], Cut(Some(px[|px| / 2].x))))
    requires
      var best := Closer(l, rr);
      r == Combine(StripClosest(StripOf(py, px[|px| / 2].x, best.dist), best.dist), best)
    ensures PairBound(r.dist, Filter(px, Cut(low)))
  {
    var mid := |px| / 2;
    var v := px[mid].x;
    var best := Closer(l, rr);
    var strip := StripOf(py, v, best.dist);
    var s := StripClosest(strip, best.dist);
    assert r.dist == s.dist by {
      if s.pair.None? {
        assert s == Best(None, best.dist);
      }
    }
    LowerBoundIffPairBound(s.dist, strip);
    CutSorted(px, mid);
    CombineBound(px, py, low, mid, l.dist, rr.dist, best.dist, r.dist);
  }

  /** `closest_pair_of_points`: `(None, inf)` below two points; otherwise
      the recursion on the input sorted by x and by y. */
  function ClosestPairOfPoints(points: seq<Point>): (r: Best)
    ensures IsClosest(points, r)
  {
    if |points| < 2 then
      Best(None, Infinite)
    else
      var px := SortBy(points, ByX);
      var py := SortBy(points, ByY);
      TopLevelClosest(points, px, py);
      ClosestRec(px, py)
  }

  /** The top-level call on the two sorted copies of the input answers for
      the input itself. */
  lemma TopLevelClosest(points: seq<Point>, px: seq<Point>, py: seq<Point>)
    requires |points| >= 2
    requires SortedBy(px, ByX) && SortedBy(py, ByY)
    requires multiset(px) == multiset(points) && multiset(py) == multiset(points)
    ensures IsClosest(points, ClosestRec(px, py))
  {
    var r := ClosestRec(px, py);
    assert |px| == |points| by {
      assert |multiset(px)| == |multiset(points)|;
    }
    FilterAll(px, Anywhere);
    assert Frame(px, py, None);
    ClosestRecMinimal(px, py, None);
    LowerBoundIffPairBound(r.dist, px);
    LowerBoundPermutation(r.dist, px, points);
  }

  /** The recursion reports the same distance as the exhaustive search. */
  lemma ClosestMatchesBruteForce(points: seq<Point>)
    ensures ClosestPairOfPoints(points).dist == BruteForceClosest(points).dist
  {
    BruteForceIsClosest(points);
    ClosestDistanceUnique(points, ClosestPairOfPoints(points), BruteForceClosest(points));
  }
}

=== FILE: closest_single.dfy ===
/** The single-list closest-pair search of the web application in
    `Question_4/app.py`: `closest_pair(points)` splits one x-ordered list
    at its middle index and builds the strip from that same list, logging
    every distance it evaluates. Its `(dist, pair, steps)` triple is
    modelled as an answer and a log. */
module SingleList {
  import opened Geometry
  import opened Sorting
  import opened Selection
  import opened Closeness
  import opened BruteForce
  import opened Strip
  import opened ClosestPair

  /** One logged line: a brute-force distance or a strip check, with the
      two points and their distance. */
  datatype AppStep = PairDistance(c: Check) | StripCheck(c: Check)

  /** Every logged check is of two entries of `s`, at their distance. */
  ghost predicate LogFrom(s: seq<Point>, steps: seq<AppStep>)
  {
    forall k :: 0 <= k < |steps| ==>
      IsPair(s, steps[k].c.p, steps[k].c.q) && steps[k].c.dsq == DistSq(steps[k].c.p, steps[k].c.q)
  }

  /** `brute_force(points)`: the answer of the exhaustive scan, and one
      log line per unordered pair, in loop order. */
  function AppBruteForce(s: seq<Point>): (t: (Best, seq<AppStep>))
    ensures t.0 == BruteForceClosest(s)
    ensures 2 * |t.1| == |s| * (|s| - 1)
    ensures forall a, b {:trigger PairIndex(|s|, a, b)} :: 0 <= a < b < |s| ==>
      PairIndex(|s|, a, b) < |t.1| && t.1[PairIndex(|s|, a, b)] == PairDistance(Check(s[a], s[b], DistSq(s[a], s[b])))
    ensures LogFrom(s, t.1)
  {
    var cs := AllPairs(s);
    var steps := seq(|cs|, k requires 0 <= k < |cs| => PairDistance(cs[k]));
    forall k | 0 <= k < |steps|
      ensures IsPair(s, steps[k].c.p, steps[k].c.q) && steps[k].c.dsq == DistSq(steps[k].c.p, steps[k].c.q)
    {
      assert PairPosition(|s|, k);
      var a, b :| 0 <= a < b < |s| && k == PairIndex(|s|, a, b);
      IndicesArePair(s, a, b);
    }
    (BruteForceClosest(s), steps)
  }

  /** `strip_closest(strip, d)` with its log: the answer of the plain strip
      scan, and one line per distance it evaluates, each of two entries of
      the strip. */
  function AppStripClosest(strip: seq<Point>, d: Dist): (t: (Best, seq<AppStep>))
    ensures t.0 == StripClosest(strip, d)
    ensures |t.1| == |StripChecks(strip, d)|
    ensures forall k :: 0 <= k < |t.1| ==> t.1[k] == StripCheck(StripChecks(strip, d)[k])
    ensures LogFrom(strip, t.1)
  {
    var cs := StripChecks(strip, d);
    (StripClosest(strip, d), seq(|cs|, k requires 0 <= k < |cs| => StripCheck(cs[k])))
  }

  /** `final_dist = ds if ds < d else d` and `final_pair = strip_pair if
      ds < d else best_pair`: the strip answer is adopted exactly when it
      is strictly closer. */
  function AdoptIfCloser(s: Best, best: Best): (r: Best)
    ensures r == s || r == best
    ensures Less(s.dist, best.dist) ==> r == s
    ensures !Less(s.dist, best.dist) ==> r == best
    ensures AtMost(r.dist, best.dist) && AtMost(r.dist, s.dist)
  {
    DistOrder(s.dist, best.dist, best.dist);
    if Less(s.dist, best.dist) then s else best
  }

  /** `strip = [p for p in points if abs(p[0] - mid_point[0]) < d]`: the
      strip of the single-list search is taken from the list itself, every
      copy of each entry within `d` of the dividing line and nothing else. */
  function ListStrip(s: seq<Point>, mid: int, d: Dist): (strip: seq<Point>)
    requires 0 <= mid < |s|
    ensures multiset(strip) <= multiset(s)
    ensures forall i :: 0 <= i < |strip| ==> Below(Abs(strip[i].x - s[mid].x), d)
    ensures forall z :: multiset(strip)[z] == if Below(Abs(z.x - s[mid].x), d) then multiset(s)[z] else 0
  {
    StripOf(s, s[mid].x, d)
  }

  /** The answer is `(None, inf)` or two entries of `s` at exactly the
      reported distance. */
  ghost predicate AnswerFrom(s: seq<Point>, b: Best)
  {
    && (b.pair.None? <==> b.dist == Infinite)
    && (b.pair.Some? ==> IsPair(s, b.pair.value.p, b.pair.value.q) && b.dist == Finite(DistSq(b.pair.value.p, b.pair.value.q)))
  }

  /** An answer drawn from `a` is drawn from any list holding `a`. */
  lemma AnswerFromWider(a: seq<Point>, b: seq<Point>, x: Best)
    requires AnswerFrom(a, x) && multiset(a) <= multiset(b)
    ensures AnswerFrom(b, x)
  {
  }

  /** The answers of both halves and of the strip combine soundly. */
  lemma AppCombineSound(s: seq<Point>, mid: int, l: Best, r: Best)
    requires 0 < mid < |s|
    requires AnswerFrom(s[..mid], l) && AnswerFrom(s[mid..], r)
    ensures AnswerFrom(s, AdoptIfCloser(AppStripClosest(ListStrip(s, mid, Closer(l, r).dist), Closer(l, r).dist).0, Closer(l, r)))
  {
    var best := Closer(l, r);
    var strip := ListStrip(s, mid, best.dist);
    var st := AppStripClosest(strip, best.dist).0;
    HalvesWithin(s, mid);
    StripAnswer(strip, best.dist, st);
    AdoptFrom(s, s[..mid], s[mid..], strip, l, r, st);
  }

  /** Both halves of a list are within it. */
  lemma HalvesWithin(s: seq<Point>, mid: int)
    requires 0 <= mid <= |s|
    ensures multiset(s[..mid]) <= multiset(s) && multiset(s[mid..]) <= multiset(s)
  {
    assert s == s[..mid] + s[mid..];
  }

  /** A strip answer strictly below `d` is a pair of the strip. */
  lemma StripAnswer(strip: seq<Point>, d: Dist, st: Best)
    requires st == StripClosest(strip, d)
    ensures Less(st.dist, d) ==> AnswerFrom(strip, st)
  {
  }

  /** Adopting the strip's answer or keeping the closer half's answer
      yields an answer drawn from any list holding all three sources. */
  lemma AdoptFrom(s: seq<Point>, a: seq<Point>, b: seq<Point>, c: seq<Point>, l: Best, r: Best, st: Best)
    requires AnswerFrom(a, l) && AnswerFrom(b, r)
    requires Less(st.dist, Closer(l, r).dist) ==> AnswerFrom(c, st)
    requires multiset(a) <= multiset(s) && multiset(b) <= multiset(s) && multiset(c) <= multiset(s)
    ensures AnswerFrom(s, AdoptIfCloser(st, Closer(l, r)))
  {
    var best := Closer(l, r);
    if Less(st.dist, best.dist) {
      AnswerFromWider(c, s, st);
    } else if best == l {
      AnswerFromWider(a, s, l);
    } else {
      AnswerFromWider(b, s, r);
    }
  }

  /** The logs of both halves and of the strip combine into a log of the
      whole list. */
  lemma AppCombineLog(s: seq<Point>, mid: int, d: Dist, ls: seq<AppStep>, rs: seq<AppStep>, ss: seq<AppStep>)
    requires 0 < mid < |s|
    requires LogFrom(s[..mid], ls) && LogFrom(s[mid..], rs) && LogFrom(ListStrip(s, mid, d), ss)
    ensures LogFrom(s, ls + rs + ss)
  {
    assert s == s[..mid] + s[mid..];
    assert multiset(s) == multiset(s[..mid]) + multiset(s[mid..]);
    var all := ls + rs + ss;
    forall k | 0 <= k < |all|
      ensures IsPair(s, all[k].c.p, all[k].c.q) && all[k].c.dsq == DistSq(all[k].c.p, all[k].c.q)
    {
      if k < |ls| {
        assert all[k] == ls[k];
      } else if k < |ls| + |rs| {
        assert all[k] == rs[k - |ls|];
      } else {
        assert all[k] == ss[k - |ls| - |rs|];
      }
    }
  }

  /** `closest_pair(points)`: brute force on three or fewer points (so
      `(inf, None)` below two); otherwise the halves `points[:mid]` and
      `points[mid:]`, the strip around `points[mid]`, and the log of the
      left half, then the right half, then the strip. Any list of at
      least two points yields a pair, which is two entries of the list
      at exactly the reported distance; every logged check is of two
      entries of the list. */
  function AppClosest(s: seq<Point>): (t: (Best, seq<AppStep>))
    ensures |s| <= 3 ==> t == AppBruteForce(s)
    ensures |s| >= 2 ==> t.0.pair.Some?
    ensures AnswerFrom(s, t.0)
    ensures LogFrom(s, t.1)
    decreases |s|
  {
    if |s| <= 3 then
      BruteForceIsClosest(s);
      AppBruteForce(s)
    else
      var mid := |s| / 2;
      var l := AppClosest(s[..mid]);
      var r := AppClosest(s[mid..]);
      var best := Closer(l.0, r.0);
      var st := AppStripClosest(ListStrip(s, mid, best.dist), best.dist);
      AppCombineSound(s, mid, l.0, r.0);
      AppCombineLog(s, mid, best.dist, l.1, r.1, st.1);
      (AdoptIfCloser(st.0, best), l.1 + r.1 + st.1)
  }

  // ---------------------------------------------------------------------
  // Minimality on an x-ordered list.

  /** On an x-ordered list, bounds for both halves and for the strip give
      a bound for the whole list: a pair inside one half is bounded there,
      and a pair across the halves that beats both halves lies within the
      strip. */
  lemma AppCombineBound(s: seq<Point>, mid: int, l: Dist, r: Dist, best: Dist, d: Dist)
    requires SortedBy(s, ByX) && 0 < mid < |s|
    requires LowerBound(l, s[..mid]) && LowerBound(r, s[mid..])
    requires AtMost(best, l) && AtMost(best, r)
    requires LowerBound(d, ListStrip(s, mid, best)) && AtMost(d, best)
    ensures LowerBound(d, s)
  {
    var strip := ListStrip(s, mid, best);
    LowerBoundIffPairBound(d, strip);
    forall i, j | 0 <= i < j < |s|
      ensures AtMost(d, Finite(DistSq(s[i], s[j])))
    {
      var e := Finite(DistSq(s[i], s[j]));
      DistOrder(d, best, e);
      if j < mid {
        assert s[..mid][i] == s[i] && s[..mid][j] == s[j];
        DistOrder(best, l, e);
      } else if i >= mid {
        assert s[mid..][i - mid] == s[i] && s[mid..][j - mid] == s[j];
        DistOrder(best, r, e);
      } else if Less(e, best) {
        if mid < j {
          assert Le(s[mid], s[j], ByX);
        }
        assert Le(s[i], s[mid], ByX);
        StraddlerInListStrip(s, mid, best, i, j);
      }
    }
  }

  /** Two entries on either side of `s[mid]` that are closer than `d`
      are a pair of the strip. */
  lemma StraddlerInListStrip(s: seq<Point>, mid: int, d: Dist, i: int, j: int)
    requires 0 <= i < j < |s| && 0 <= mid < |s|
    requires s[i].x <= s[mid].x <= s[j].x
    requires Less(Finite(DistSq(s[i], s[j])), d)
    ensures IsPair(ListStrip(s, mid, d), s[i], s[j])
  {
    var strip := ListStrip(s, mid, d);
    StraddlersNear(s[i], s[j], s[mid].x, d);
    assert multiset(strip)[s[i]] == multiset(s)[s[i]];
    assert multiset(strip)[s[j]] == multiset(s)[s[j]];
    IndicesArePair(s, i, j);
    PairMoves(s, strip, s[i], s[j]);
  }

  /** On an x-ordered list no two entries are strictly closer than the
      answer. */
  lemma {:induction false} AppClosestMinimal(s: seq<Point>)
    requires SortedBy(s, ByX)
    ensures LowerBound(AppClosest(s).0.dist, s)
    decreases |s|
  {
    if |s| > 3 {
      var mid := |s| / 2;
      var l := AppClosest(s[..mid]).0;
      var r := AppClosest(s[mid..]).0;
      var best := Closer(l, r);
      var strip := ListStrip(s, mid, best.dist);
      var a := AppClosest(s).0;
      assert a == AdoptIfCloser(AppStripClosest(strip, best.dist).0, best);
      HalvesSorted(s, mid);
      AppClosestMinimal(s[..mid]);
      AppClosestMinimal(s[mid..]);
      AppCombineBound(s, mid, l.dist, r.dist, best.dist, a.dist);
    }
  }

  lemma HalvesSorted(s: seq<Point>, mid: int)
    requires SortedBy(s, ByX) && 0 <= mid <= |s|
    ensures SortedBy(s[..mid], ByX) && SortedBy(s[mid..], ByX)
  {
    assert SortedBy(s[..mid], ByX);
    assert SortedBy(s[mid..], ByX);
  }

  /** The `/closest` route runs `closest_pair(sorted(points))`: Python's
      tuple order sorts by x first, so the answer is a correct closest
      pair of the uploaded points, at the same distance as the two-list
      search reports. */
  function ClosestRoute(points: seq<Point>): (t: (Best, seq<AppStep>))
    ensures IsClosest(points, t.0)
    ensures t.0.dist == ClosestPairOfPoints(points).dist
    ensures LogFrom(points, t.1)
  {
    var s := SortBy(points, Lexicographic);
    var t := AppClosest(s);
    LexicographicSortsByX(s);
    AppClosestMinimal(s);
    LowerBoundPermutation(t.0.dist, s, points);
    ClosestDistanceUnique(points, t.0, ClosestPairOfPoints(points));
    t
  }
}

=== FILE: closest_trace.dfy ===
/** The step-logging closest-pair search of `Question_4.py`: the same
    answers as the plain search, plus a list of records describing each
    distance evaluation of the brute-force base case, each division and
    each strip. The records are modelled by their content, not by their
    dictionary encoding. */
module ClosestTrace {
  import opened Geometry
  import opened Sorting
  import opened Closeness
  import opened BruteForce
  import opened Strip
  import opened ClosestPair

  /** One logged record. `width` of a strip record is twice `halfWidth`. */
  datatype Step =
    | Compare(c: Check)                                      // 'compare'
    | Split(midpoint: Point, leftSize: nat, rightSize: nat)  // 'divide'
    | StripScan(stripSize: nat, halfWidth: Dist)             // 'strip'
    | Start(numPoints: nat)                                  // 'start'
    | Outcome(result: Best)                                  // 'result'

  datatype Kind = CompareKind | SplitKind | StripKind | StartKind | OutcomeKind

  function KindOf(s: Step): Kind
  {
    match s
    case Compare(_) => CompareKind
    case Split(_, _, _) => SplitKind
    case StripScan(_, _) => StripKind
    case Start(_) => StartKind
    case Outcome(_) => OutcomeKind
  }

  /** How many records of kind `k` the log holds. */
  function Occurrences(steps: seq<Step>, k: Kind): nat
  {
    if steps == [] then 0
    else (if KindOf(steps[0]) == k then 1 else 0) + Occurrences(steps[1..], k)
  }

  lemma {:induction false} OccurrencesAppend(a: seq<Step>, b: seq<Step>, k: Kind)
    ensures Occurrences(a + b, k) == Occurrences(a, k) + Occurrences(b, k)
  {
    if a == [] {
      assert a + b == b;
    } else {
      assert (a + b)[0] == a[0];
      assert (a + b)[1..] == a[1..] + b;
      OccurrencesAppend(a[1..], b, k);
    }
  }

  /** Every comparison record of the log is of two entries of `s`, at
      their distance. */
  ghost predicate ComparesFrom(s: seq<Point>, steps: seq<Step>)
  {
    forall k :: 0 <= k < |steps| && steps[k].Compare? ==>
      IsPair(s, steps[k].c.p, steps[k].c.q) && steps[k].c.dsq == DistSq(steps[k].c.p, steps[k].c.q)
  }

  lemma ComparesFromJoin(s: seq<Point>, a: seq<Step>, b: seq<Step>)
    requires ComparesFrom(s, a) && ComparesFrom(s, b)
    ensures ComparesFrom(s, a + b)
  {
    forall k | 0 <= k < |a + b| && (a + b)[k].Compare?
      ensures IsPair(s, (a + b)[k].c.p, (a + b)[k].c.q)
    {
      if k >= |a| {
        assert (a + b)[k] == b[k - |a|];
      }
    }
  }

  lemma ComparesFromWider(s: seq<Point>, t: seq<Point>, steps: seq<Step>)
    requires ComparesFrom(s, steps) && multiset(s) <= multiset(t)
    ensures ComparesFrom(t, steps)
  {
  }

  /** `brute_force_closest` with its log: the same answer as the plain
      scan, and one `compare` record per unordered pair, `n(n-1)/2` in
      all, the one for `(points[i], points[j])` at loop position
      `PairIndex(n, i, j)` carrying their distance. */
  function BruteForceDetailed(s: seq<Point>): (t: (Best, seq<Step>))
    ensures t.0 == BruteForceClosest(s)
    ensures 2 * |t.1| == |s| * (|s| - 1)
    ensures forall a, b {:trigger PairIndex(|s|, a, b)} :: 0 <= a < b < |s| ==>
      PairIndex(|s|, a, b) < |t.1| && t.1[PairIndex(|s|, a, b)] == Compare(Check(s[a], s[b], DistSq(s[a], s[b])))
    ensures forall k :: 0 <= k < |t.1| ==> t.1[k].Compare?
    ensures ComparesFrom(s, t.1)
  {
    var cs := AllPairs(s);
    var steps := seq(|cs|, k requires 0 <= k < |cs| => Compare(cs[k]));
    forall k | 0 <= k < |steps|
      ensures IsPair(s, steps[k].c.p, steps[k].c.q) && steps[k].c.dsq == DistSq(steps[k].c.p, steps[k].c.q)
    {
      assert PairPosition(|s|, k);
      var a, b :| 0 <= a < b < |s| && k == PairIndex(|s|, a, b);
      IndicesArePair(s, a, b);
    }
    (BruteForceClosest(s), steps)
  }

  /** A log made only of comparisons holds no other record. */
  lemma {:induction false} OnlyCompares(steps: seq<Step>, k: Kind)
    requires forall i :: 0 <= i < |steps| ==> steps[i].Compare?
    requires k != CompareKind
    ensures Occurrences(steps, k) == 0
  {
    if steps != [] {
      OnlyCompares(steps[1..], k);
    }
  }

  /** `closest_pair_recursive(px, py, steps)`: the answer of the plain
      recursion. A base call logs exactly brute force's comparisons. Any
      other call logs a `divide` record first, with the midpoint `px[n//2]`,
      `left_size = n//2` and the two sizes summing to `n`, and a `strip`
      record last, whose size counts the points of `py` within its
      half-width of the dividing line. `RecursionNests` states that the
      records in between are the left call's log followed by the right
      call's, and `DivisionCount` how many divisions the log holds. Over
      the whole log, divisions and strips are equally many, and every
      comparison is of two entries of `px`. */
  function ClosestRecDetailed(px: seq<Point>, py: seq<Point>): (t: (Best, seq<Step>))
    ensures t.0 == ClosestRec(px, py)
    ensures |px| <= 3 ==> t.1 == BruteForceDetailed(px).1
    ensures |px| >= 4 ==>
      && |t.1| >= 2
      && t.1[0].Split? && t.1[0].midpoint == px[|px| / 2]
      && t.1[0].leftSize == |px| / 2 && t.1[0].leftSize + t.1[0].rightSize == |px|
      && (var dv := Divide(px, py);
          var d := Closer(ClosestRec(dv.leftX, dv.leftY), ClosestRec(dv.rightX, dv.rightY)).dist;
          t.1[|t.1| - 1] == StripScan(|StripOf(py, px[|px| / 2].x, d)|, d))
      && AtMost(t.0.dist, t.1[|t.1| - 1].halfWidth)
    ensures Occurrences(t.1, SplitKind) == Occurrences(t.1, StripKind)
    ensures Occurrences(t.1, StartKind) == 0 && Occurrences(t.1, OutcomeKind) == 0
    ensures ComparesFrom(px, t.1)
    decreases |px|
  {
    if |px| <= 3 then
      var (best, steps) := BruteForceDetailed(px);
      OnlyCompares(steps, SplitKind);
      OnlyCompares(steps, StripKind);
      OnlyCompares(steps, StartKind);
      OnlyCompares(steps, OutcomeKind);
      (best, steps)
    else
      var dv := Divide(px, py);
      var l := ClosestRecDetailed(dv.leftX, dv.leftY);
      var r := ClosestRecDetailed(dv.rightX, dv.rightY);
      DivideDetailed(px, py, dv, l, r)
  }

  /** One non-base call of `closest_pair_recursive(px, py, steps)`, given
      the two recursive answers with their logs: its log is its `divide`
      record, the left log, the right log, then its `strip` record. */
  function DivideDetailed(px: seq<Point>, py: seq<Point>, dv: Division, l: (Best, seq<Step>), r: (Best, seq<Step>)): (t: (Best, seq<Step>))
    requires |px| >= 4 && dv == Divide(px, py)
    requires l.0 == ClosestRec(dv.leftX, dv.leftY) && r.0 == ClosestRec(dv.rightX, dv.rightY)
    requires Occurrences(l.1, SplitKind) == Occurrences(l.1, StripKind)
    requires Occurrences(r.1, SplitKind) == Occurrences(r.1, StripKind)
    requires Occurrences(l.1, StartKind) == 0 && Occurrences(l.1, OutcomeKind) == 0
    requires Occurrences(r.1, StartKind) == 0 && Occurrences(r.1, OutcomeKind) == 0
    requires ComparesFrom(dv.leftX, l.1) && ComparesFrom(dv.rightX, r.1)
    ensures |t.1| >= 2
    ensures t.1[0].Split? && t.1[0].midpoint == px[|px| / 2] && t.1[0].leftSize == |px| / 2 && t.1[0].leftSize + t.1[0].rightSize == |px|
    ensures t.1[|t.1| - 1] == StripScan(|StripOf(py, px[|px| / 2].x, Closer(l.0, r.0).dist)|, Closer(l.0, r.0).dist)
    ensures AtMost(t.0.dist, t.1[|t.1| - 1].halfWidth)
    ensures t.0 == ClosestRec(px, py)
    ensures t.1 == Framed(t.1[0], l.1, r.1, t.1[|t.1| - 1])
    ensures Occurrences(t.1, SplitKind) == Occurrences(t.1, StripKind)
    ensures Occurrences(t.1, StartKind) == 0 && Occurrences(t.1, OutcomeKind) == 0
    ensures ComparesFrom(px, t.1)
  {
    var n := |px|;
    var best := Closer(l.0, r.0);
    var strip := StripOf(py, px[n / 2].x, best.dist);
    var first := Split(px[n / 2], n / 2, n - n / 2);
    var last := StripScan(|strip|, best.dist);
    RecAnswer(px, py);
    LogFacts(px, dv, first, l.1, r.1, last);
    (Combine(StripClosest(strip, best.dist), best), Framed(first, l.1, r.1, last))
  }

  /** The log of a non-base call is exactly its `divide` record, the log
      of the call on the left half `(px[:mid], pyl)`, the log of the call
      on the right half `(px[mid:], pyr)`, then its `strip` record. */
  lemma RecursionNests(px: seq<Point>, py: seq<Point>)
    requires |px| >= 4
    ensures
      var dv := Divide(px, py);
      var l := ClosestRecDetailed(dv.leftX, dv.leftY);
      var r := ClosestRecDetailed(dv.rightX, dv.rightY);
      var d := Closer(l.0, r.0).dist;
      ClosestRecDetailed(px, py).1
        == Framed(Split(px[|px| / 2], |px| / 2, |px| - |px| / 2), l.1, r.1,
                  StripScan(|StripOf(py, px[|px| / 2].x, d)|, d))
  {
  }

  /** How many calls of `closest_pair_recursive` on `n` points divide:
      none on three points or fewer, otherwise this one plus those on the
      `n//2` and `n - n//2` points of the halves. */
  function Divisions(n: nat): nat
  {
    if n <= 3 then 0 else 1 + Divisions(n / 2) + Divisions(n - n / 2)
  }

  /** The log of a call on `n` points holds exactly `Divisions(n)`
      `divide` records, and as many `strip` records: the count depends on
      the number of points alone. */
  lemma {:induction false} DivisionCount(px: seq<Point>, py: seq<Point>)
    ensures Occurrences(ClosestRecDetailed(px, py).1, SplitKind) == Divisions(|px|)
    ensures Occurrences(ClosestRecDetailed(px, py).1, StripKind) == Divisions(|px|)
    decreases |px|
  {
    if |px| <= 3 {
      OnlyCompares(ClosestRecDetailed(px, py).1, SplitKind);
    } else {
      var dv := Divide(px, py);
      var l := ClosestRecDetailed(dv.leftX, dv.leftY).1;
      var r := ClosestRecDetailed(dv.rightX, dv.rightY).1;
      DivisionCount(dv.leftX, dv.leftY);
      DivisionCount(dv.rightX, dv.rightY);
      RecursionNests(px, py);
      SplitsFramed(ClosestRecDetailed(px, py).1, l, r);
      DivisionsSplit(|px|, |dv.leftX|, |dv.rightX|);
    }
  }

  lemma DivisionsSplit(n: nat, a: nat, b: nat)
    requires n >= 4 && a == n / 2 && a + b == n
    ensures Divisions(n) == 1 + Divisions(a) + Divisions(b)
  {
  }

  lemma SplitsFramed(steps: seq<Step>, ls: seq<Step>, rs: seq<Step>)
    requires |steps| >= 2 && steps[0].Split? && steps[|steps| - 1].StripScan?
    requires steps == Framed(steps[0], ls, rs, steps[|steps| - 1])
    ensures Occurrences(steps, SplitKind) == 1 + Occurrences(ls, SplitKind) + Occurrences(rs, SplitKind)
  {
    OccurrencesFramed(steps[0], ls, rs, steps[|steps| - 1], SplitKind);
  }

  /** The log of a non-base call: its `divide` record, the two recursive
      logs in call order, then its `strip` record. */
  function Framed(first: Step, ls: seq<Step>, rs: seq<Step>, last: Step): (steps: seq<Step>)
    ensures |steps| == |ls| + |rs| + 2
    ensures steps[0] == first && steps[|steps| - 1] == last
  {
    [first] + ls + rs + [last]
  }

  lemma LogFacts(px: seq<Point>, dv: Division, first: Step, ls: seq<Step>, rs: seq<Step>, last: Step)
    requires dv.leftX + dv.rightX == px
    requires first.Split? && last.StripScan?
    requires ComparesFrom(dv.leftX, ls) && ComparesFrom(dv.rightX, rs)
    requires Occurrences(ls, SplitKind) == Occurrences(ls, StripKind)
    requires Occurrences(rs, SplitKind) == Occurrences(rs, StripKind)
    requires Occurrences(ls, StartKind) == 0 && Occurrences(ls, OutcomeKind) == 0
    requires Occurrences(rs, StartKind) == 0 && Occurrences(rs, OutcomeKind) == 0
    ensures Occurrences(Framed(first, ls, rs, last), SplitKind) == Occurrences(Framed(first, ls, rs, last), StripKind)
    ensures Occurrences(Framed(first, ls, rs, last), StartKind) == 0
    ensures Occurrences(Framed(first, ls, rs, last), OutcomeKind) == 0
    ensures ComparesFrom(px, Framed(first, ls, rs, last))
  {
    forall k: Kind
      ensures Occurrences(Framed(first, ls, rs, last), k)
        == (if KindOf(first) == k then 1 else 0) + Occurrences(ls, k) + Occurrences(rs, k) + (if KindOf(last) == k then 1 else 0)
    {
      OccurrencesFramed(first, ls, rs, last, k);
    }
    ComparesFromWider(dv.leftX, px, ls);
    ComparesFromWider(dv.rightX, px, rs);
    ComparesFramed(px, first, ls, rs, last);
  }

  lemma OccurrencesOne(x: Step, k: Kind)
    ensures Occurrences([x], k) == if KindOf(x) == k then 1 else 0
  {
    assert [x][1..] == [];
  }

  lemma OccurrencesFramed(first: Step, ls: seq<Step>, rs: seq<Step>, last: Step, k: Kind)
    ensures Occurrences(Framed(first, ls, rs, last), k)
      == (if KindOf(first) == k then 1 else 0) + Occurrences(ls, k) + Occurrences(rs, k) + (if KindOf(last) == k then 1 else 0)
  {
    OccurrencesAppend([first], ls, k);
    OccurrencesAppend([first] + ls, rs, k);
    OccurrencesAppend([first] + ls + rs, [last], k);
    OccurrencesOne(first, k);
    OccurrencesOne(last, k);
  }

  lemma ComparesFramed(px: seq<Point>, first: Step, ls: seq<Step>, rs: seq<Step>, last: Step)
    requires first.Split? && last.StripScan?
    requires ComparesFrom(px, ls) && ComparesFrom(px, rs)
    ensures ComparesFrom(px, Framed(first, ls, rs, last))
  {
    ComparesFromJoin(px, [first], ls);
    ComparesFromJoin(px, [first] + ls, rs);
    ComparesFromJoin(px, [first] + ls + rs, [last]);
  }


  lemma Bracketed(n: nat, inner: seq<Step>, best: Best)
    requires Occurrences(inner, StartKind) == 0 && Occurrences(inner, OutcomeKind) == 0
    ensures Occurrences([Start(n)] + inner + [Outcome(best)], StartKind) == 1
    ensures Occurrences([Start(n)] + inner + [Outcome(best)], OutcomeKind) == 1
  {
    forall k: Kind
      ensures Occurrences([Start(n)] + inner + [Outcome(best)], k)
        == Occurrences([Start(n)], k) + Occurrences(inner, k) + Occurrences([Outcome(best)], k)
    {
      OccurrencesAppend([Start(n)], inner, k);
      OccurrencesAppend([Start(n)] + inner, [Outcome(best)], k);
    }
    assert [Start(n)][1..] == [] && [Outcome(best)][1..] == [];
  }

  /** `closest_pair_of_points_detailed(points)`: `(None, inf, [])` below
      two points; otherwise a correct closest pair (the same as the plain
      search reports), with a log that opens with a `start` record giving
      the number of points and closes with a `result` record holding the
      answer. */
  function ClosestPairDetailed(points: seq<Point>): (t: (Best, seq<Step>))
    ensures |points| < 2 ==> t == (Best(None, Infinite), [])
    ensures |points| >= 2 ==>
      && |t.1| >= 2
      && t.1[0] == Start(|points|)
      && t.1[|t.1| - 1] == Outcome(t.0)
      && Occurrences(t.1, StartKind) == 1 && Occurrences(t.1, OutcomeKind) == 1
    ensures IsClosest(points, t.0)
    ensures t.0 == ClosestPairOfPoints(points)
  {
    if |points| < 2 then
      (Best(None, Infinite), [])
    else
      var px := SortBy(points, ByX);
      var py := SortBy(points, ByY);
      var (best, inner) := ClosestRecDetailed(px, py);
      SameAsPlain(points, best);
      Bracketed(|points|, inner, best);
      (best, [Start(|points|)] + inner + [Outcome(best)])
  }

  /** The recursion's answer on the two sorted copies is the plain search's
      answer, and so a closest pair of the input. */
  lemma SameAsPlain(points: seq<Point>, best: Best)
    requires |points| >= 2
    requires best == ClosestRec(SortBy(points, ByX), SortBy(points, ByY))
    ensures best == ClosestPairOfPoints(points) && IsClosest(points, best)
  {
  }
}

=== FILE: digits.dfy ===
/** Decimal digits: `10**k` and `len(str(n))` for a non-negative `n`, and
    the operand range `generate_integer_dataset` draws `k`-digit integers
    from. */
module Digits {
  // Only for the `Option` result of `OperandRange`.
  import Geometry

  function Pow10(k: nat): (r: nat)
    ensures r >= 1
  {
    if k == 0 then 1 else 10 * Pow10(k - 1)
  }

  lemma {:induction false} Pow10Add(a: nat, b: nat)
    ensures Pow10(a + b) == Pow10(a) * Pow10(b)
  {
    if a > 0 {
      Pow10Add(a - 1, b);
      assert Pow10(a + b) == 10 * Pow10(a - 1 + b);
    }
  }

  lemma {:induction false} Pow10Monotone(a: nat, b: nat)
    requires a <= b
    ensures Pow10(a) <= Pow10(b)
    decreases b - a
  {
    if a < b {
      Pow10Monotone(a + 1, b);
    }
  }

  /** `len(str(n))` for `n >= 0`: the number of decimal digits, with `0`
      written as one digit. */
  function DigitCount(n: nat): (k: nat)
    ensures k >= 1
  {
    if n < 10 then 1 else 1 + DigitCount(n / 10)
  }

  /** A number with `k` digits lies below `10**k`, and at or above
      `10**(k-1)` unless it is zero. */
  lemma {:induction false} DigitCountBounds(n: nat)
    ensures n < Pow10(DigitCount(n))
    ensures n >= 1 ==> Pow10(DigitCount(n) - 1) <= n
  {
    if n >= 10 {
      DigitCountBounds(n / 10);
      var k := DigitCount(n / 10);
      assert Pow10(k + 1) == 10 * Pow10(k);
    }
  }

  /** A positive integer has exactly `k` digits if and only if it lies in
      `[10**(k-1), 10**k - 1]`. */
  lemma DigitRange(n: nat, k: nat)
    requires n >= 1 && k >= 1
    ensures DigitCount(n) == k <==> Pow10(k - 1) <= n <= Pow10(k) - 1
  {
    DigitCountBounds(n);
    var d := DigitCount(n);
    if Pow10(k - 1) <= n <= Pow10(k) - 1 {
      if d < k {
        Pow10Monotone(d, k - 1);
      } else if d > k {
        Pow10Monotone(k, d - 1);
      }
    }
  }

  /** The range `random.randint(10**(num_digits-1), 10**num_digits - 1)`
      draws an operand from: `None` for fewer than one digit, where the
      lower bound `10**-1` is not an integer and the call fails; otherwise
      bounds between which every positive integer, and no other, has
      exactly `num_digits` digits (zero, which also counts as one digit,
      lies below the range). */
  function OperandRange(numDigits: int): (r: Geometry.Option<(nat, nat)>)
    ensures numDigits < 1 <==> r.None?
    ensures r.Some? ==> r.value.0 >= 1 && r.value.0 <= r.value.1
    ensures r.Some? ==> forall n: nat {:trigger DigitCount(n)} :: n >= 1 ==>
      (DigitCount(n) == numDigits <==> r.value.0 <= n <= r.value.1)
  {
    if numDigits < 1 then
      Geometry.None
    else
      var lo := Pow10(numDigits - 1);
      var hi := Pow10(numDigits) - 1;
      forall n: nat | n >= 1
        ensures DigitCount(n) == numDigits <==> lo <= n <= hi
      {
        DigitRange(n, numDigits);
      }
      assert Pow10(numDigits) == 10 * lo;
      Geometry.Some((lo, hi))
  }
}

=== FILE: geometry.dfy ===
/** Points, squared Euclidean distances and the distance order used by the
    closest-pair searches.

    Coordinates are integers, so every squared distance is exact. Python
    computes `math.sqrt(dx**2 + dy**2)` and compares the square roots;
    since the square root is monotone on non-negative ints, comparing two
    distances is comparing their squares, so a distance is kept here as its
    square. `float('inf')` is the `Infinite` distance. */
module Geometry {

  datatype Option<T> = None | Some(value: T)

  /** A point of the plane (a Python tuple `(x, y)`). */
  datatype Point = Point(x: int, y: int)

  /** An ordered pair of points as the algorithms return it, `(p1, p2)`. */
  datatype Pair = Pair(p: Point, q: Point)

  /** A distance: the square root of `sq`, or `float('inf')`. */
  datatype Dist = Finite(sq: int) | Infinite

  /** The result of every closest-pair routine: the pair found (or `None`)
      and the distance reported with it. */
  datatype Best = Best(pair: Option<Pair>, dist: Dist)

  /** One evaluation of `distance(p, q)`, as recorded by the step logs. */
  datatype Check = Check(p: Point, q: Point, dsq: int)

  function Abs(v: int): (r: int)
    ensures r >= 0 && (r == v || r == -v)
  {
    if v < 0 then -v else v
  }

  /** The square of `distance(a, b)`: non-negative, and zero exactly for
      identical points. */
  function DistSq(a: Point, b: Point): (r: int)
    ensures r >= 0
    ensures r == 0 <==> a == b
  {
    var dx := a.x - b.x;
    var dy := a.y - b.y;
    SumOfSquaresZero(dx, dy);
    dx * dx + dy * dy
  }

  lemma SquarePositive(u: int)
    ensures u * u >= 0
    ensures u != 0 ==> u * u > 0
  {
    if u < 0 {
      assert u * u == (-u) * (-u);
    }
  }

  lemma SumOfSquaresZero(u: int, v: int)
    ensures u * u >= 0 && v * v >= 0
    ensures u * u + v * v == 0 <==> u == 0 && v == 0
  {
    SquarePositive(u);
    SquarePositive(v);
  }

  /** `distance` is symmetric. */
  lemma {:induction false} DistSqSymmetric(a: Point, b: Point)
    ensures DistSq(a, b) == DistSq(b, a)
  {
    assert (a.x - b.x) * (a.x - b.x) == (b.x - a.x) * (b.x - a.x);
    assert (a.y - b.y) * (a.y - b.y) == (b.y - a.y) * (b.y - a.y);
  }

  /** Each coordinate difference is bounded by the distance. */
  lemma CoordinateBelowDistance(a: Point, b: Point)
    ensures (a.x - b.x) * (a.x - b.x) <= DistSq(a, b)
    ensures (a.y - b.y) * (a.y - b.y) <= DistSq(a, b)
  {
    SumOfSquaresZero(a.x - b.x, a.y - b.y);
  }

  lemma SquareMonotone(u: int, v: int)
    requires 0 <= u <= v
    ensures u * u <= v * v
  {
    assert v * v - u * u == (v - u) * (v + u);
    assert (v - u) * (v + u) >= 0;
  }

  /** Python's `a < b` on two distances. */
  predicate Less(a: Dist, b: Dist)
  {
    match a
    case Infinite => false
    case Finite(u) => b.Infinite? || u < b.sq
  }

  /** `a <= b` on distances. */
  predicate AtMost(a: Dist, b: Dist)
  {
    !Less(b, a)
  }

  /** Python's `v < d` for an integer `v` and a distance `d`: the square root of
      a non-negative `d.sq` exceeds `v` exactly when `v` is negative or its
      square is below `d.sq`. */
  predicate Below(v: int, d: Dist)
  {
    match d
    case Infinite => true
    case Finite(c) => v < 0 || v * v < c
  }

  /** `Less` is a strict total order and `AtMost` its reflexive closure. */
  lemma DistOrder(a: Dist, b: Dist, c: Dist)
    ensures !Less(a, a)
    ensures Less(a, b) ==> !Less(b, a)
    ensures Less(a, b) || a == b || Less(b, a)
    ensures Less(a, b) && Less(b, c) ==> Less(a, c)
    ensures AtMost(a, b) && AtMost(b, c) ==> AtMost(a, c)
    ensures AtMost(a, b) && Less(b, c) ==> Less(a, c)
    ensures Less(a, b) && AtMost(b, c) ==> Less(a, c)
  {
  }

  /** The body of the `if dist < min_dist:` update shared by every scan:
      the pair `(a, b)` replaces the best so far only when strictly closer. */
  function Update(acc: Best, a: Point, b: Point): (r: Best)
    ensures AtMost(r.dist, acc.dist)
    ensures AtMost(r.dist, Finite(DistSq(a, b)))
    ensures r == acc || r == Best(Some(Pair(a, b)), Finite(DistSq(a, b)))
    ensures r != acc ==> Less(r.dist, acc.dist)
  {
    var dist := Finite(DistSq(a, b));
    if Less(dist, acc.dist) then Best(Some(Pair(a, b)), dist) else acc
  }
}

=== FILE: karatsuba.dfy ===
/** `karatsuba(x, y)`: multiplication by splitting both operands at
    `m = max(len(str(x)), len(str(y))) // 2` decimal digits and combining
    three recursive products, `z2 * 10**(2m) + (z1 - z2 - z0) * 10**m + z0`.
    Python integers are unbounded, as are Dafny's. */
module Karatsuba {
  import opened Digits

  /** Operands below ten, negatives included, are multiplied directly. */
  predicate IsBase(x: int, y: int)
  {
    x < 10 || y < 10
  }

  /** `m = max(len(str(x)), len(str(y))) // 2` for operands of at least two
      digits: at least one, and below the longer operand's digit count. */
  function SplitPosition(x: nat, y: nat): (m: nat)
    requires x >= 10 && y >= 10
    ensures 1 <= m
    ensures m < DigitCount(x) || m < DigitCount(y)
    ensures 2 * m <= DigitCount(x) || 2 * m <= DigitCount(y)
  {
    var n := if DigitCount(x) >= DigitCount(y) then DigitCount(x) else DigitCount(y);
    n / 2
  }

  /** `divmod(v, 10**m)` of a non-negative `v` (Python's floor division
      agrees with Dafny's for a positive divisor): the high part and the
      low `m` digits. */
  function Split(v: nat, m: nat): (hl: (nat, nat))
    ensures v == hl.0 * Pow10(m) + hl.1
    ensures hl.1 < Pow10(m)
  {
    var p := Pow10(m);
    DivMod(v, p);
    (v / p, v % p)
  }

  lemma DivMod(v: nat, p: nat)
    requires p >= 1
    ensures v == (v / p) * p + v % p && 0 <= v % p < p && v / p >= 0
  {
  }

  /** Splitting below the digit count leaves a non-zero high part, so
      `high + low` is strictly smaller than `v`. */
  lemma SplitShrinks(v: nat, m: nat)
    requires 1 <= m < DigitCount(v)
    ensures Split(v, m).0 >= 1
    ensures Split(v, m).0 + Split(v, m).1 < v
  {
    DigitCountBounds(v);
    Pow10Monotone(m, DigitCount(v) - 1);
    Pow10Monotone(1, m);
    var p := Pow10(m);
    assert p >= 10 by {
      assert Pow10(1) == 10;
    }
    var (h, l) := Split(v, m);
    HighLowSum(v, h, l, p);
  }

  /** Arithmetic core of `SplitShrinks`. */
  lemma HighLowSum(v: int, h: int, l: int, p: int)
    requires v == h * p + l && 0 <= l < p && 10 <= p <= v && h >= 0
    ensures h >= 1 && h + l < v
  {
    if h != 0 {
      AtLeastOnce(h, p - 1);
      assert h * p == h * (p - 1) + h;
    }
  }

  lemma AtLeastOnce(a: int, b: int)
    requires a >= 1 && b >= 0
    ensures a * b >= b
  {
    assert a * b - b == (a - 1) * b;
  }

  /** The middle term `z1 - z2 - z0` is the sum of the two cross products,
      hence never negative for non-negative halves. */
  lemma MiddleTerm(h1: int, l1: int, h2: int, l2: int)
    ensures (l1 + h1) * (l2 + h2) - h1 * h2 - l1 * l2 == l1 * h2 + h1 * l2
    ensures h1 >= 0 && l1 >= 0 && h2 >= 0 && l2 >= 0 ==> (l1 + h1) * (l2 + h2) - h1 * h2 - l1 * l2 >= 0
  {
    assert (l1 + h1) * (l2 + h2) == l1 * l2 + l1 * h2 + h1 * l2 + h1 * h2;
    if h1 >= 0 && l1 >= 0 && h2 >= 0 && l2 >= 0 {
      assert l1 * h2 >= 0 && h1 * l2 >= 0;
    }
  }

  /** The recombination rebuilds the product of the two split operands. */
  lemma Recombine(h1: int, l1: int, h2: int, l2: int, m: nat)
    ensures h1 * h2 * Pow10(2 * m) + ((l1 + h1) * (l2 + h2) - h1 * h2 - l1 * l2) * Pow10(m) + l1 * l2
      == (h1 * Pow10(m) + l1) * (h2 * Pow10(m) + l2)
  {
    var b := Pow10(m);
    var bb := Pow10(2 * m);
    Pow10Add(m, m);
    MiddleTerm(h1, l1, h2, l2);
    Expand(h1, l1, h2, l2, b, bb);
  }

  /** Product of two numbers written in base `b`, with `bb == b * b`. */
  lemma Expand(h1: int, l1: int, h2: int, l2: int, b: int, bb: int)
    requires bb == b * b
    ensures (h1 * b + l1) * (h2 * b + l2) == h1 * h2 * bb + (l1 * h2 + h1 * l2) * b + l1 * l2
  {
    assert (h1 * b + l1) * (h2 * b + l2) == h1 * b * (h2 * b) + h1 * b * l2 + l1 * (h2 * b) + l1 * l2;
    assert h1 * b * (h2 * b) == h1 * h2 * (b * b);
  }

  /** `karatsuba(x, y)` returns the product for every pair of integers. */
  function Karatsuba(x: int, y: int): (r: int)
    ensures r == x * y
    decreases x + y
  {
    if IsBase(x, y) then
      x * y
    else
      var m := SplitPosition(x, y);
      var (high1, low1) := Split(x, m);
      var (high2, low2) := Split(y, m);
      SmallerOperands(x, y, m);
      var z0 := Karatsuba(low1, low2);
      var z1 := Karatsuba(low1 + high1, low2 + high2);
      var z2 := Karatsuba(high1, high2);
      Recombine(high1, low1, high2, low2, m);
      z2 * Pow10(2 * m) + (z1 - z2 - z0) * Pow10(m) + z0
  }

  /** Termination: each of the three recursive calls has a smaller operand
      sum, because the longer operand's high part is non-zero. */
  lemma SmallerOperands(x: nat, y: nat, m: nat)
    requires x >= 10 && y >= 10 && m == SplitPosition(x, y)
    ensures Split(x, m).1 + Split(y, m).1 < x + y
    ensures Split(x, m).0 + Split(y, m).0 < x + y
    ensures Split(x, m).1 + Split(x, m).0 + Split(y, m).1 + Split(y, m).0 < x + y
  {
    var p := Pow10(m);
    var (h1, l1) := Split(x, m);
    var (h2, l2) := Split(y, m);
    if m < DigitCount(x) {
      SplitShrinks(x, m);
      PartsBelow(x, h1, l1, p);
      PartsWithin(y, h2, l2, p);
    } else {
      SplitShrinks(y, m);
      PartsBelow(y, h2, l2, p);
      PartsWithin(x, h1, l1, p);
    }
  }

  /** Either part of a split never exceeds the whole, and nor does their sum. */
  lemma PartsWithin(v: int, h: int, l: int, p: int)
    requires v == h * p + l && h >= 0 && l >= 0 && p >= 1
    ensures h <= v && l <= v && h + l <= v
  {
    AtLeastOnce(p, h);
  }

  /** With a non-zero high part and a base of at least two, each part is
      strictly below the whole. */
  lemma PartsBelow(v: int, h: int, l: int, p: int)
    requires v == h * p + l && h >= 1 && 0 <= l < p && p >= 2
    ensures h < v && l < v
  {
    AtLeastOnce(h, p);
    AtLeastOnce(p, h);
  }

  /** `integer_multiplication(x, y)`, the wrapper `test_integer_multiplication` exercises. */
  function IntegerMultiplication(x: int, y: int): (r: int)
    ensures r == x * y
  {
    Karatsuba(x, y)
  }

  /** The three operand pairs `test_integer_multiplication` exercises. */
  lemma SampleProducts()
    ensures Karatsuba(1234, 5678) == 7006652
    ensures Karatsuba(12345678, 87654321) == 1082152022374638
    ensures Karatsuba(123456789012345, 987654321098765) == 121932631137021071359549253925
  {
  }

  /** The `verified` field `apply_algorithms` reports for each operand
      file, `karatsuba(x, y) == x * y`, is always true. */
  function ApplyAlgorithmsVerified(x: int, y: int): (verified: bool)
    ensures verified
  {
    Karatsuba(x, y) == x * y
  }
}

=== FILE: karatsuba_trace.dfy ===
/** The step-logging Karatsuba variants: `karatsuba_detailed(x, y, depth)`
    of `Question_4.py`, which returns its records, and
    `karatsuba(x, y, steps)` of `Question_4/app.py`, which appends lines to
    a list it is handed. Records are modelled by their content. */
module KaratsubaTrace {
  import opened Digits
  import opened Karatsuba

  /** A record of `karatsuba_detailed`. */
  datatype KStep =
    | BaseCase(x: int, y: int, result: int, depth: nat)   // 'base_case'
    | SplitAt(x: int, y: int, splitPos: nat, depth: nat)  // 'split'
    | CombineAt(result: int, depth: nat)                  // 'combine'

  function Splits(steps: seq<KStep>): nat
  {
    if steps == [] then 0 else (if steps[0].SplitAt? then 1 else 0) + Splits(steps[1..])
  }

  function Combines(steps: seq<KStep>): nat
  {
    if steps == [] then 0 else (if steps[0].CombineAt? then 1 else 0) + Combines(steps[1..])
  }

  function BaseCases(steps: seq<KStep>): nat
  {
    if steps == [] then 0 else (if steps[0].BaseCase? then 1 else 0) + BaseCases(steps[1..])
  }

  lemma {:induction false} CountsAppend(a: seq<KStep>, b: seq<KStep>)
    ensures Splits(a + b) == Splits(a) + Splits(b)
    ensures Combines(a + b) == Combines(a) + Combines(b)
    ensures BaseCases(a + b) == BaseCases(a) + BaseCases(b)
  {
    if a == [] {
      assert a + b == b;
    } else {
      assert (a + b)[0] == a[0];
      assert (a + b)[1..] == a[1..] + b;
      CountsAppend(a[1..], b);
    }
  }

  /** Every record sits at `depth` or deeper, and every base-case record
      holds the true product of its operands. */
  ghost predicate WellFormed(steps: seq<KStep>, depth: nat)
  {
    forall k :: 0 <= k < |steps| ==>
      && steps[k].depth >= depth
      && (steps[k].BaseCase? ==> steps[k].result == steps[k].x * steps[k].y)
  }

  /** The records of a non-base call: its `split`, the three sub-calls'
      records in call order, then its `combine`. */
  function Nest(first: KStep, s0: seq<KStep>, s1: seq<KStep>, s2: seq<KStep>, last: KStep): (steps: seq<KStep>)
    ensures |steps| == |s0| + |s1| + |s2| + 2
    ensures steps[0] == first && steps[|steps| - 1] == last
  {
    [first] + s0 + s1 + s2 + [last]
  }

  lemma Assemble(x: int, y: int, m: nat, depth: nat, r: int, s0: seq<KStep>, s1: seq<KStep>, s2: seq<KStep>)
    requires WellFormed(s0, depth + 1) && WellFormed(s1, depth + 1) && WellFormed(s2, depth + 1)
    requires Splits(s0) == Combines(s0) && Splits(s1) == Combines(s1) && Splits(s2) == Combines(s2)
    requires BaseCases(s0) == 2 * Splits(s0) + 1 && BaseCases(s1) == 2 * Splits(s1) + 1
    requires BaseCases(s2) == 2 * Splits(s2) + 1
    ensures
      var all := Nest(SplitAt(x, y, m, depth), s0, s1, s2, CombineAt(r, depth));
      && WellFormed(all, depth)
      && (forall k :: 0 < k < |all| - 1 ==> all[k].depth > depth)
      && Splits(all) == Combines(all)
      && BaseCases(all) == 2 * Splits(all) + 1
  {
    var first := [SplitAt(x, y, m, depth)];
    var last := [CombineAt(r, depth)];
    var all := first + s0 + s1 + s2 + last;
    CountsAppend(first, s0);
    CountsAppend(first + s0, s1);
    CountsAppend(first + s0 + s1, s2);
    CountsAppend(first + s0 + s1 + s2, last);
    assert first[1..] == [] && last[1..] == [];
    forall k | 0 < k < |all| - 1
      ensures all[k].depth > depth
      ensures all[k].BaseCase? ==> all[k].result == all[k].x * all[k].y
    {
      if k <= |s0| {
        assert all[k] == s0[k - 1];
      } else if k <= |s0| + |s1| {
        assert all[k] == s1[k - 1 - |s0|];
      } else {
        assert all[k] == s2[k - 1 - |s0| - |s1|];
      }
    }
  }

  /** `karatsuba_detailed(x, y, depth)`: the product, and its records. A
      base call records exactly one `base_case` with the product at its
      own depth. Any other call records `split` (with `split_pos = m`)
      first and `combine` with the product last, at its own depth, and
      only deeper records in between; `KaratsubaNests` states that those
      are the three sub-calls' records in call order. Splits and combines
      pair up, every split has three sub-calls (so base cases number
      twice the splits plus one), and every base case records a true
      product. */
  function KaratsubaDetailed(x: int, y: int, depth: nat): (t: (int, seq<KStep>))
    ensures t.0 == x * y
    ensures IsBase(x, y) ==> t.1 == [BaseCase(x, y, x * y, depth)]
    ensures !IsBase(x, y) ==>
      && |t.1| >= 2
      && t.1[0] == SplitAt(x, y, SplitPosition(x, y), depth)
      && t.1[|t.1| - 1] == CombineAt(x * y, depth)
      && forall k :: 0 < k < |t.1| - 1 ==> t.1[k].depth > depth
    ensures WellFormed(t.1, depth)
    ensures Splits(t.1) == Combines(t.1)
    ensures BaseCases(t.1) == 2 * Splits(t.1) + 1
    decreases x + y
  {
    if IsBase(x, y) then
      assert [BaseCase(x, y, x * y, depth)][1..] == [];
      (x * y, [BaseCase(x, y, x * y, depth)])
    else
      var m := SplitPosition(x, y);
      var (high1, low1) := Split(x, m);
      var (high2, low2) := Split(y, m);
      SmallerOperands(x, y, m);
      var (z0, s0) := KaratsubaDetailed(low1, low2, depth + 1);
      var (z1, s1) := KaratsubaDetailed(low1 + high1, low2 + high2, depth + 1);
      var (z2, s2) := KaratsubaDetailed(high1, high2, depth + 1);
      var result := Recombined(x, y, m, z0, z1, z2);
      Assemble(x, y, m, depth, result, s0, s1, s2);
      (result, Nest(SplitAt(x, y, m, depth), s0, s1, s2, CombineAt(result, depth)))
  }

  /** `z2 * 10**(2m) + (z1 - z2 - z0) * 10**m + z0` from the three
      products of the split operands is the product of the operands. */
  function Recombined(x: nat, y: nat, m: nat, z0: int, z1: int, z2: int): (r: int)
    requires z0 == Split(x, m).1 * Split(y, m).1 && z2 == Split(x, m).0 * Split(y, m).0
    requires z1 == (Split(x, m).1 + Split(x, m).0) * (Split(y, m).1 + Split(y, m).0)
    ensures r == x * y
  {
    Recombine(Split(x, m).0, Split(x, m).1, Split(y, m).0, Split(y, m).1, m);
    z2 * Pow10(2 * m) + (z1 - z2 - z0) * Pow10(m) + z0
  }

  /** The records of a non-base call are exactly its `split`, then the
      records of the sub-calls on `(low1, low2)`, `(low1 + high1,
      low2 + high2)` and `(high1, high2)`, in that order and one level
      deeper, then its `combine` holding the product. */
  lemma KaratsubaNests(x: int, y: int, depth: nat)
    requires !IsBase(x, y)
    ensures
      var m := SplitPosition(x, y);
      var (high1, low1) := Split(x, m);
      var (high2, low2) := Split(y, m);
      KaratsubaDetailed(x, y, depth).1
        == Nest(SplitAt(x, y, m, depth),
                KaratsubaDetailed(low1, low2, depth + 1).1,
                KaratsubaDetailed(low1 + high1, low2 + high2, depth + 1).1,
                KaratsubaDetailed(high1, high2, depth + 1).1,
                CombineAt(x * y, depth))
  {
  }

  /** The `is_correct` flag of the `/api/karatsuba` endpoint is always
      true. */
  function ApiKaratsubaCorrect(x: int, y: int): (isCorrect: bool)
    ensures isCorrect
  {
    KaratsubaDetailed(x, y, 0).0 == x * y
  }

  // ---------------------------------------------------------------------
  // `karatsuba(x, y, steps)` of the web application.

  /** A line of the web application's log. */
  datatype KLog =
    | Call(x: int, y: int)                           // "karatsuba(x, y)"
    | BaseMultiply(x: int, y: int, result: int)      // "Base multiply: x * y = result"
    | Combined(result: int)                          // "Combine -> result"

  /** Every base-multiply line from position `from` on holds a true
      product. */
  ghost predicate TrueProducts(log: seq<KLog>, from: nat)
  {
    forall k :: from <= k < |log| && log[k].BaseMultiply? ==> log[k].result == log[k].x * log[k].y
  }

  /** `karatsuba(x, y, steps)`: the product, and the list it was handed
      with lines appended and nothing before them changed. The first new
      line is the call record. A base call appends exactly the call and
      one base-multiply line holding the product; any other call's last
      line is the combine line holding the product. Every appended
      base-multiply line holds a true product. */
  function KaratsubaLogged(x: int, y: int, steps: seq<KLog>): (t: (int, seq<KLog>))
    ensures t.0 == x * y
    ensures |t.1| > |steps| && t.1[..|steps|] == steps && t.1[|steps|] == Call(x, y)
    ensures IsBase(x, y) ==> t.1 == steps + [Call(x, y), BaseMultiply(x, y, x * y)]
    ensures !IsBase(x, y) ==> t.1[|t.1| - 1] == Combined(x * y)
    ensures TrueProducts(t.1, |steps|)
    decreases x + y
  {
    var called := steps + [Call(x, y)];
    if IsBase(x, y) then
      (x * y, called + [BaseMultiply(x, y, x * y)])
    else
      var m := SplitPosition(x, y);
      var (high1, low1) := Split(x, m);
      var (high2, low2) := Split(y, m);
      SmallerOperands(x, y, m);
      var (z0, l0) := KaratsubaLogged(low1, low2, called);
      var (z1, l1) := KaratsubaLogged(low1 + high1, low2 + high2, l0);
      var (z2, l2) := KaratsubaLogged(high1, high2, l1);
      Recombine(high1, low1, high2, low2, m);
      var result := z2 * Pow10(2 * m) + (z1 - z2 - z0) * Pow10(m) + z0;
      PrefixChain(steps, x, y, l0, l1, l2, [Combined(result)]);
      (result, l2 + [Combined(result)])
  }

  lemma PrefixChain(steps: seq<KLog>, x: int, y: int, l0: seq<KLog>, l1: seq<KLog>, l2: seq<KLog>, tail: seq<KLog>)
    requires |l0| > |steps| + 1 && l0[..|steps| + 1] == steps + [Call(x, y)] && TrueProducts(l0, |steps| + 1)
    requires |l1| > |l0| && l1[..|l0|] == l0 && TrueProducts(l1, |l0|)
    requires |l2| > |l1| && l2[..|l1|] == l1 && TrueProducts(l2, |l1|)
    requires forall k :: 0 <= k < |tail| ==> !tail[k].BaseMultiply?
    ensures (l2 + tail)[..|steps|] == steps
    ensures (l2 + tail)[|steps|] == Call(x, y)
    ensures TrueProducts(l2 + tail, |steps|)
  {
    var all := l2 + tail;
    forall i | 0 <= i <= |steps|
      ensures all[i] == (steps + [Call(x, y)])[i]
    {
      assert all[i] == l2[i] == l1[i] == l0[i];
      assert l0[i] == l0[..|steps| + 1][i];
    }
    forall k | |steps| <= k < |all| && all[k].BaseMultiply?
      ensures all[k].result == all[k].x * all[k].y
    {
      if k < |l2| {
        if k >= |l1| {
          assert all[k] == l2[k];
        } else if k >= |l0| {
          assert all[k] == l1[k];
        } else {
          assert all[k] == l0[k];
        }
      }
    }
    assert all[..|steps|] == steps;
  }

  /** The `/karatsuba` route: `karatsuba(a, b, steps)` on an empty list;
      its `verified` field is always true and its log opens with the
      top-level call. */
  function KaratsubaRoute(a: int, b: int): (t: (int, bool, seq<KLog>))
    ensures t.0 == a * b
    ensures t.1
    ensures |t.2| >= 2 && t.2[0] == Call(a, b)
  {
    var (result, steps) := KaratsubaLogged(a, b, []);
    (result, result == a * b, steps)
  }
}

=== FILE: selection.dfy ===
/** The list comprehensions of the closest-pair search,
    `[p for p in s if cond(p)]`, as an order-preserving filter over a named
    condition. */
module Selection {
  import opened Geometry
  import opened Sorting

  /** The conditions the comprehensions test. */
  datatype Crit =
    | Anywhere                  // every point
    | AtMostX(v: int)           // `p[0] <= v`, the left partition `pyl`
    | AboveX(v: int)            // `p[0] > v`, the right partition `pyr`
    | NearX(v: int, d: Dist)    // `abs(p[0] - v) < d`, the strip
    | SameKey(k: Point, o: Order) // the sort key of `p` equals that of `k`

  predicate Holds(c: Crit, p: Point)
  {
    match c
    case Anywhere => true
    case AtMostX(v) => p.x <= v
    case AboveX(v) => p.x > v
    case NearX(v, d) => Below(Abs(p.x - v), d)
    case SameKey(k, o) => Le(p, k, o) && Le(k, p, o)
  }

  function Filter(s: seq<Point>, c: Crit): (r: seq<Point>)
    ensures |r| <= |s|
    ensures forall i :: 0 <= i < |r| ==> Holds(c, r[i])
    ensures multiset(r) <= multiset(s)
  {
    if s == [] then
      []
    else
      assert s == [s[0]] + s[1..];
      (if Holds(c, s[0]) then [s[0]] else []) + Filter(s[1..], c)
  }

  /** The filter is the order-preserving comprehension: it maps a
      concatenation to the concatenation of the filtered parts, and a
      single point to itself exactly when the point satisfies the
      condition. */
  lemma {:induction false} FilterAppend(a: seq<Point>, b: seq<Point>, c: Crit)
    ensures Filter(a + b, c) == Filter(a, c) + Filter(b, c)
  {
    if a == [] {
      assert a + b == b;
    } else {
      var h, t := a[0], a[1..];
      HeadOff(a, b);
      FilterCons(h, t + b, c);
      FilterCons(h, t, c);
      FilterAppend(t, b, c);
      Regroup(if Holds(c, h) then [h] else [], Filter(t, c), Filter(b, c));
    }
  }

  lemma HeadOff(a: seq<Point>, b: seq<Point>)
    requires a != []
    ensures a == [a[0]] + a[1..]
    ensures a + b == [a[0]] + (a[1..] + b)
  {
  }

  lemma Regroup(x: seq<Point>, y: seq<Point>, z: seq<Point>)
    ensures x + (y + z) == (x + y) + z
  {
  }

  /** The filter of a list with a head in front. */
  lemma FilterCons(h: Point, s: seq<Point>, c: Crit)
    ensures Filter([h] + s, c) == (if Holds(c, h) then [h] else []) + Filter(s, c)
  {
    assert ([h] + s)[1..] == s;
  }


  lemma FilterOne(p: Point, c: Crit)
    ensures Filter([p], c) == if Holds(c, p) then [p] else []
  {
    assert [p][1..] == [];
  }

  /** The filter keeps every copy of a point satisfying the condition and no
      copy of any other point. */
  lemma {:induction false} FilterCount(s: seq<Point>, c: Crit, z: Point)
    ensures multiset(Filter(s, c))[z] == if Holds(c, z) then multiset(s)[z] else 0
  {
    if s != [] {
      assert s == [s[0]] + s[1..];
      FilterCount(s[1..], c, z);
    }
  }

  /** A point no later than every element of `s` is no later than any
      element of a filter of `s`. */
  lemma {:induction false} FilterAbove(s: seq<Point>, c: Crit, b: Point, o: Order)
    requires forall i :: 0 <= i < |s| ==> Le(b, s[i], o)
    ensures forall k :: 0 <= k < |Filter(s, c)| ==> Le(b, Filter(s, c)[k], o)
  {
    if s != [] {
      FilterAbove(s[1..], c, b, o);
      var head := if Holds(c, s[0]) then [s[0]] else [];
      assert Filter(s, c) == head + Filter(s[1..], c);
    }
  }

  /** A filter of an ordered list is ordered: `pyl`, `pyr` and the strip
      inherit the y order of `py` without re-sorting. */
  lemma {:induction false} FilterSorted(s: seq<Point>, c: Crit, o: Order)
    requires SortedBy(s, o)
    ensures SortedBy(Filter(s, c), o)
  {
    if s != [] {
      assert SortedBy(s[1..], o);
      FilterSorted(s[1..], c, o);
      FilterAbove(s[1..], c, s[0], o);
      var head := if Holds(c, s[0]) then [s[0]] else [];
      assert Filter(s, c) == head + Filter(s[1..], c);
    }
  }

  /** A filter that every element passes is the identity. */
  lemma {:induction false} FilterAll(s: seq<Point>, c: Crit)
    requires forall i :: 0 <= i < |s| ==> Holds(c, s[i])
    ensures Filter(s, c) == s
  {
    if s != [] {
      FilterAll(s[1..], c);
      assert s == [s[0]] + s[1..];
    }
  }

  /** Every point lands in exactly one of `pyl` and `pyr`: the two
      partitions together are a permutation of the list they split. */
  lemma FilterPartition(s: seq<Point>, v: int)
    ensures multiset(Filter(s, AtMostX(v))) + multiset(Filter(s, AboveX(v))) == multiset(s)
  {
    forall z
      ensures (multiset(Filter(s, AtMostX(v))) + multiset(Filter(s, AboveX(v))))[z] == multiset(s)[z]
    {
      FilterCount(s, AtMostX(v), z);
      FilterCount(s, AboveX(v), z);
    }
  }

  /** Two points on either side of the dividing line (inclusive) that are
      closer than `d` both lie in the strip of half-width `d` around it. */
  lemma StraddlersNear(p: Point, q: Point, v: int, d: Dist)
    requires p.x <= v <= q.x
    requires Less(Finite(DistSq(p, q)), d)
    ensures Holds(NearX(v, d), p) && Holds(NearX(v, d), q)
  {
    var w := q.x - p.x;
    CoordinateBelowDistance(p, q);
    assert (p.x - q.x) * (p.x - q.x) == w * w;
    SquareMonotone(v - p.x, w);
    SquareMonotone(q.x - v, w);
    assert Abs(p.x - v) * Abs(p.x - v) == (v - p.x) * (v - p.x);
  }

  /** Inserting `p` into a sorted list puts it in front of the points
      with its key and leaves the order of every key's points alone. */
  lemma {:induction false} InsertStable(p: Point, t: seq<Point>, o: Order, k: Point)
    requires SortedBy(t, o)
    ensures Filter(Insert(p, t, o), SameKey(k, o)) == Filter([p], SameKey(k, o)) + Filter(t, SameKey(k, o))
  {
    if t == [] || Le(p, t[0], o) {
      FilterAppend([p], t, SameKey(k, o));
    } else {
      var h, rest := t[0], t[1..];
      InsertBehind(p, t, o);
      InsertStable(p, rest, o, k);
      KeysApart(p, h, k, o);
      PassBehind(h, p, Insert(p, rest, o), rest, SameKey(k, o));
    }
  }

  /** Behind a head it does not precede, `p` goes into the tail. */
  lemma InsertBehind(p: Point, t: seq<Point>, o: Order)
    requires SortedBy(t, o) && t != [] && !Le(p, t[0], o)
    ensures SortedBy(t[1..], o) && t == [t[0]] + t[1..]
    ensures Insert(p, t, o) == [t[0]] + Insert(p, t[1..], o)
  {
  }

  /** Points that do not share a key cannot both share the key of `k`. */
  lemma KeysApart(p: Point, h: Point, k: Point, o: Order)
    requires !Le(p, h, o)
    ensures !(Holds(SameKey(k, o), p) && Holds(SameKey(k, o), h))
  {
    LeTotalPreorder(p, k, h, o);
  }

  /** If `ins` filters to `p`'s share followed by `rest`'s, and at most one
      of `p` and `h` passes, then `[h] + ins` filters to `p`'s share
      followed by that of `[h] + rest`. */
  lemma PassBehind(h: Point, p: Point, ins: seq<Point>, rest: seq<Point>, c: Crit)
    requires Filter(ins, c) == Filter([p], c) + Filter(rest, c)
    requires !(Holds(c, p) && Holds(c, h))
    ensures Filter([h] + ins, c) == Filter([p], c) + Filter([h] + rest, c)
  {
    FilterCons(h, ins, c);
    FilterCons(h, rest, c);
    FilterOne(p, c);
    SwapAroundEmpty(if Holds(c, h) then [h] else [], Filter([p], c), Filter(rest, c));
  }

  lemma SwapAroundEmpty(a: seq<Point>, b: seq<Point>, z: seq<Point>)
    requires a == [] || b == []
    ensures a + (b + z) == b + (a + z)
  {
    if a == [] {
      assert a + (b + z) == b + z;
    } else {
      assert b + (a + z) == a + z;
    }
  }

  /** `sorted(s, key=...)` is stable: for every key, the points with that
      key come out in their input order. */
  lemma {:induction false} SortStable(s: seq<Point>, o: Order, k: Point)
    ensures Filter(SortBy(s, o), SameKey(k, o)) == Filter(s, SameKey(k, o))
  {
    if s != [] {
      var rest := SortBy(s[1..], o);
      SortStep(s, o);
      SortStable(s[1..], o, k);
      InsertStable(s[0], rest, o, k);
      FilterAppend([s[0]], s[1..], SameKey(k, o));
    }
  }

  /** The sort inserts the head into the sorted tail. */
  lemma SortStep(s: seq<Point>, o: Order)
    requires s != []
    ensures s == [s[0]] + s[1..]
    ensures SortedBy(SortBy(s[1..], o), o)
    ensures SortBy(s, o) == Insert(s[0], SortBy(s[1..], o), o)
  {
  }
}

=== FILE: sorting.dfy ===
/** Python's `sorted(points, key=...)` and `list.sort(key=...)`: a stable
    sort, modelled as insertion sort. Stability is what makes each inserted
    element land in front of the elements with an equal key. */
module Sorting {
  import opened Geometry

  /** The three orders the repository sorts points by: by x
      (`key=lambda p: p[0]`), by y (`key=lambda p: p[1]`), and Python's
      default tuple order (`sorted(points)`). */
  datatype Order = ByX | ByY | Lexicographic

  predicate Le(a: Point, b: Point, o: Order)
  {
    match o
    case ByX => a.x <= b.x
    case ByY => a.y <= b.y
    case Lexicographic => a.x < b.x || (a.x == b.x && a.y <= b.y)
  }

  /** Each order is a total preorder. */
  lemma LeTotalPreorder(a: Point, b: Point, c: Point, o: Order)
    ensures Le(a, a, o)
    ensures Le(a, b, o) || Le(b, a, o)
    ensures Le(a, b, o) && Le(b, c, o) ==> Le(a, c, o)
  {
  }

  ghost predicate SortedBy(s: seq<Point>, o: Order)
  {
    forall i, j :: 0 <= i < j < |s| ==> Le(s[i], s[j], o)
  }

  /** Inserts `p` in front of the first element it does not follow. */
  function Insert(p: Point, s: seq<Point>, o: Order): (r: seq<Point>)
    requires SortedBy(s, o)
    ensures SortedBy(r, o)
    ensures multiset(r) == multiset(s) + multiset{p}
    ensures |r| == |s| + 1
  {
    if s == [] || Le(p, s[0], o) then
      [p] + s
    else
      LeTotalPreorder(p, s[0], s[0], o);
      var t := Insert(p, s[1..], o);
      HeadStaysFirst(p, s, t, o);
      [s[0]] + t
  }

  /** Inserting `p` behind the head of `s` leaves that head in front of
      everything: the result, with the head in front, is sorted and holds
      `s` and `p`. */
  lemma HeadStaysFirst(p: Point, s: seq<Point>, t: seq<Point>, o: Order)
    requires SortedBy(s, o) && s != [] && Le(s[0], p, o)
    requires SortedBy(t, o) && multiset(t) == multiset(s[1..]) + multiset{p}
    ensures SortedBy([s[0]] + t, o)
    ensures multiset([s[0]] + t) == multiset(s) + multiset{p}
  {
    assert s == [s[0]] + s[1..];
    forall k | 0 <= k < |t|
      ensures Le(s[0], t[k], o)
    {
      assert t[k] in multiset(t);
      if t[k] != p {
        assert t[k] in multiset(s[1..]);
        var j :| 0 <= j < |s[1..]| && s[1..][j] == t[k];
        assert s[1 + j] == t[k];
      }
    }
    forall i, j | 0 <= i < j < |[s[0]] + t|
      ensures Le(([s[0]] + t)[i], ([s[0]] + t)[j], o)
    {
      if i > 0 {
        assert ([s[0]] + t)[i] == t[i - 1];
      }
      assert ([s[0]] + t)[j] == t[j - 1];
    }
  }

  /** `sorted(s, key=...)`. */
  function SortBy(s: seq<Point>, o: Order): (r: seq<Point>)
    ensures SortedBy(r, o)
    ensures multiset(r) == multiset(s)
    ensures |r| == |s|
  {
    if s == [] then
      []
    else
      assert s == [s[0]] + s[1..];
      Insert(s[0], SortBy(s[1..], o), o)
  }

  /** Sorting a list that is already in order leaves it unchanged: the strip
      built from a y-ordered list comes out of `strip.sort` as it went in. */
  lemma {:induction false} SortSortedIsIdentity(s: seq<Point>, o: Order)
    requires SortedBy(s, o)
    ensures SortBy(s, o) == s
  {
    if s != [] {
      assert SortedBy(s[1..], o);
      SortSortedIsIdentity(s[1..], o);
      if |s| > 1 {
        assert Le(s[0], s[1], o);
      }
      assert s == [s[0]] + s[1..];
    }
  }

  /** Python's tuple order sorts by x first. */
  lemma LexicographicSortsByX(s: seq<Point>)
    requires SortedBy(s, Lexicographic)
    ensures SortedBy(s, ByX)
  {
  }
}

=== FILE: strip.dfy ===
/** `strip_closest(strip, d)`: sort the strip by y, then compare each point
    with the following ones only while their y difference stays below the
    best distance so far (which starts at `d`). */
module Strip {
  import opened Geometry
  import opened Sorting
  import opened Closeness
  import opened BruteForce

  /** The `while j < len(strip) and strip[j][1] - strip[i][1] < min_dist`
      loop of row `i`. */
  function ScanRow(s: seq<Point>, i: int, j: int, acc: Best): Best
    requires 0 <= i < |s| && i < j <= |s|
    decreases |s| - j
  {
    if j < |s| && Below(s[j].y - s[i].y, acc.dist) then
      ScanRow(s, i, j + 1, Update(acc, s[i], s[j]))
    else
      acc
  }

  /** The `for i in range(len(strip))` loop. */
  function Scan(s: seq<Point>, i: int, acc: Best): Best
    requires 0 <= i <= |s|
    decreases |s| - i
  {
    if i == |s| then acc else Scan(s, i + 1, ScanRow(s, i, i + 1, acc))
  }

  /** `acc` holds the pair `(s[a], s[b])`, `a < b`, at its distance. */
  ghost predicate FoundAt(s: seq<Point>, acc: Best, a: int, b: int)
  {
    0 <= a < b < |s| && acc == Best(Some(Pair(s[a], s[b])), Finite(DistSq(s[a], s[b])))
  }

  /** What the scan knows once every pair before `(i, j)` is settled: either
      compared, or skipped because it cannot beat the best so far. */
  ghost predicate ScanInv(s: seq<Point>, d: Dist, acc: Best, i: int, j: int)
  {
    && AtMost(acc.dist, d)
    && (acc.pair.Some? <==> Less(acc.dist, d))
    && (acc.pair.Some? ==> exists a, b :: FoundAt(s, acc, a, b))
    && forall a, b :: 0 <= a < b < |s| && PairBefore(a, b, i, j) ==>
         AtMost(acc.dist, Finite(DistSq(s[a], s[b])))
  }

  lemma CompareOne(s: seq<Point>, d: Dist, acc: Best, i: int, j: int)
    requires 0 <= i < j < |s|
    requires ScanInv(s, d, acc, i, j)
    ensures ScanInv(s, d, Update(acc, s[i], s[j]), i, j + 1)
  {
    var acc' := Update(acc, s[i], s[j]);
    DistOrder(acc'.dist, acc.dist, d);
    if acc' != acc {
      assert FoundAt(s, acc', i, j);
    }
    forall a, b | 0 <= a < b < |s| && PairBefore(a, b, i, j + 1)
      ensures AtMost(acc'.dist, Finite(DistSq(s[a], s[b])))
    {
      if PairBefore(a, b, i, j) {
        DistOrder(acc'.dist, acc.dist, Finite(DistSq(s[a], s[b])));
      }
    }
  }

  /** The early exit is sound: once `strip[j]` is too far above `strip[i]`
      in y, so is every later point of a y-ordered strip. */
  lemma SkipRest(s: seq<Point>, acc: Best, i: int, j: int)
    requires SortedBy(s, ByY)
    requires 0 <= i < j < |s|
    requires !Below(s[j].y - s[i].y, acc.dist)
    ensures forall b :: j <= b < |s| ==> AtMost(acc.dist, Finite(DistSq(s[i], s[b])))
  {
    var v := s[j].y - s[i].y;
    forall b | j <= b < |s|
      ensures AtMost(acc.dist, Finite(DistSq(s[i], s[b])))
    {
      var w := s[b].y - s[i].y;
      if b > j {
        assert Le(s[j], s[b], ByY);
      }
      SquareMonotone(v, w);
      CoordinateBelowDistance(s[i], s[b]);
      assert (s[i].y - s[b].y) * (s[i].y - s[b].y) == w * w;
    }
  }

  lemma {:induction false} ScanRowInv(s: seq<Point>, d: Dist, acc: Best, i: int, j: int)
    requires SortedBy(s, ByY)
    requires 0 <= i < |s| && i < j <= |s|
    requires ScanInv(s, d, acc, i, j)
    ensures ScanInv(s, d, ScanRow(s, i, j, acc), i, |s|)
    decreases |s| - j
  {
    if j < |s| {
      if Below(s[j].y - s[i].y, acc.dist) {
        var acc' := Update(acc, s[i], s[j]);
        assert ScanRow(s, i, j, acc) == ScanRow(s, i, j + 1, acc');
        CompareOne(s, d, acc, i, j);
        ScanRowInv(s, d, acc', i, j + 1);
      } else {
        RowStop(s, d, acc, i, j);
      }
    }
  }

  /** The early exit of row `i` at `j` ends the row settled. */
  lemma RowStop(s: seq<Point>, d: Dist, acc: Best, i: int, j: int)
    requires SortedBy(s, ByY)
    requires 0 <= i < j < |s|
    requires ScanInv(s, d, acc, i, j)
    requires !Below(s[j].y - s[i].y, acc.dist)
    ensures ScanInv(s, d, ScanRow(s, i, j, acc), i, |s|)
  {
    assert ScanRow(s, i, j, acc) == acc;
    SkipRest(s, acc, i, j);
    SkipToEnd(s, d, acc, i, j);
  }

  /** Leaving row `i` at `j` settles the rest of the row, given that no
      later point of it can beat the best so far. */
  lemma SkipToEnd(s: seq<Point>, d: Dist, acc: Best, i: int, j: int)
    requires 0 <= i < j <= |s|
    requires ScanInv(s, d, acc, i, j)
    requires forall b :: j <= b < |s| ==> AtMost(acc.dist, Finite(DistSq(s[i], s[b])))
    ensures ScanInv(s, d, acc, i, |s|)
  {
    forall a, b | 0 <= a < b < |s| && PairBefore(a, b, i, |s|)
      ensures AtMost(acc.dist, Finite(DistSq(s[a], s[b])))
    {
      if !PairBefore(a, b, i, j) {
        assert a == i && j <= b;
      }
    }
  }

  lemma {:induction false} ScanInvAll(s: seq<Point>, d: Dist, acc: Best, i: int)
    requires SortedBy(s, ByY)
    requires 0 <= i <= |s|
    requires ScanInv(s, d, acc, i, i + 1)
    ensures ScanInv(s, d, Scan(s, i, acc), |s|, |s| + 1)
    decreases |s| - i
  {
    if i < |s| {
      var acc' := ScanRow(s, i, i + 1, acc);
      ScanRowInv(s, d, acc, i, i + 1);
      StartNextRow(s, d, acc', i);
      ScanInvAll(s, d, acc', i + 1);
    }
  }

  /** A finished row `i` is the start of row `i + 1`. */
  lemma StartNextRow(s: seq<Point>, d: Dist, acc: Best, i: int)
    requires 0 <= i < |s|
    requires ScanInv(s, d, acc, i, |s|)
    ensures ScanInv(s, d, acc, i + 1, i + 2)
  {
    forall a, b | 0 <= a < b < |s| && PairBefore(a, b, i + 1, i + 2)
      ensures AtMost(acc.dist, Finite(DistSq(s[a], s[b])))
    {
      assert PairBefore(a, b, i, |s|);
    }
  }

  lemma FoundInStrip(strip: seq<Point>, s: seq<Point>, r: Best, a: int, b: int)
    requires s == SortBy(strip, ByY)
    requires FoundAt(s, r, a, b)
    ensures IsPair(strip, r.pair.value.p, r.pair.value.q)
    ensures r.dist == Finite(DistSq(r.pair.value.p, r.pair.value.q))
  {
    IndicesArePair(s, a, b);
  }

  lemma ScanComplete(s: seq<Point>, d: Dist, r: Best)
    requires SortedBy(s, ByY)
    requires r == Scan(s, 0, Best(None, d))
    ensures AtMost(r.dist, d)
    ensures r.pair.Some? <==> Less(r.dist, d)
    ensures r.pair.Some? ==> exists a, b :: FoundAt(s, r, a, b)
    ensures LowerBound(r.dist, s)
  {
    DistOrder(d, d, d);
    ScanInvAll(s, d, Best(None, d), 0);
    assert ScanInv(s, d, r, |s|, |s| + 1);
    forall a, b | 0 <= a < b < |s|
      ensures AtMost(r.dist, Finite(DistSq(s[a], s[b])))
    {
      assert PairBefore(a, b, |s|, |s| + 1);
    }
  }

  lemma StripFacts(strip: seq<Point>, d: Dist, s: seq<Point>, r: Best)
    requires s == SortBy(strip, ByY)
    requires r == Scan(s, 0, Best(None, d))
    ensures AtMost(r.dist, d)
    ensures r.pair.Some? <==> Less(r.dist, d)
    ensures r.pair.Some? ==>
      IsPair(strip, r.pair.value.p, r.pair.value.q) && r.dist == Finite(DistSq(r.pair.value.p, r.pair.value.q))
    ensures LowerBound(r.dist, strip)
  {
    ScanComplete(s, d, r);
    LowerBoundPermutation(r.dist, s, strip);
    if r.pair.Some? {
      var a, b :| FoundAt(s, r, a, b);
      FoundInStrip(strip, s, r, a, b);
    }
  }

  /** `strip_closest(strip, d)`: the reported distance never exceeds `d`; a
      pair comes back exactly when something strictly closer than `d` was
      found, and then it is two entries of the strip at the reported
      distance; otherwise the answer is `(None, d)`. No two entries of the
      strip are closer than the reported distance. */
  function StripClosest(strip: seq<Point>, d: Dist): (r: Best)
    ensures AtMost(r.dist, d)
    ensures r.pair.Some? <==> Less(r.dist, d)
    ensures r.pair.None? ==> r == Best(None, d)
    ensures r.pair.Some? ==>
      IsPair(strip, r.pair.value.p, r.pair.value.q) && r.dist == Finite(DistSq(r.pair.value.p, r.pair.value.q))
    ensures LowerBound(r.dist, strip)
  {
    var s := SortBy(strip, ByY);
    var r := Scan(s, 0, Best(None, d));
    StripFacts(strip, d, s, r);
    DistOrder(r.dist, d, d);
    r
  }

  // ---------------------------------------------------------------------
  // The comparisons the scan performs, which the single-list variant logs.

  function ScanRowChecks(s: seq<Point>, i: int, j: int, acc: Best): seq<Check>
    requires 0 <= i < |s| && i < j <= |s|
    decreases |s| - j
  {
    if j < |s| && Below(s[j].y - s[i].y, acc.dist) then
      [Check(s[i], s[j], DistSq(s[i], s[j]))] + ScanRowChecks(s, i, j + 1, Update(acc, s[i], s[j]))
    else
      []
  }

  function ScanChecks(s: seq<Point>, i: int, acc: Best): seq<Check>
    requires 0 <= i <= |s|
    decreases |s| - i
  {
    if i == |s| then [] else ScanRowChecks(s, i, i + 1, acc) + ScanChecks(s, i + 1, ScanRow(s, i, i + 1, acc))
  }

  /** Every logged comparison is of two entries of `s` taken in index order,
      carrying their distance. */
  ghost predicate ChecksOf(s: seq<Point>, cs: seq<Check>)
  {
    forall k :: 0 <= k < |cs| ==>
      exists a, b :: 0 <= a < b < |s| && cs[k] == Check(s[a], s[b], DistSq(s[a], s[b]))
  }

  lemma {:induction false} ScanRowChecksOf(s: seq<Point>, i: int, j: int, acc: Best)
    requires 0 <= i < |s| && i < j <= |s|
    ensures ChecksOf(s, ScanRowChecks(s, i, j, acc))
    decreases |s| - j
  {
    if j < |s| && Below(s[j].y - s[i].y, acc.dist) {
      var rest := ScanRowChecks(s, i, j + 1, Update(acc, s[i], s[j]));
      ScanRowChecksOf(s, i, j + 1, Update(acc, s[i], s[j]));
      var cs := [Check(s[i], s[j], DistSq(s[i], s[j]))] + rest;
      forall k | 0 <= k < |cs|
        ensures exists a, b :: 0 <= a < b < |s| && cs[k] == Check(s[a], s[b], DistSq(s[a], s[b]))
      {
        if k == 0 {
          assert cs[k] == Check(s[i], s[j], DistSq(s[i], s[j]));
        } else {
          assert cs[k] == rest[k - 1];
        }
      }
    }
  }

  lemma {:induction false} ScanChecksOf(s: seq<Point>, i: int, acc: Best)
    requires 0 <= i <= |s|
    ensures ChecksOf(s, ScanChecks(s, i, acc))
    decreases |s| - i
  {
    if i < |s| {
      var row := ScanRowChecks(s, i, i + 1, acc);
      var rest := ScanChecks(s, i + 1, ScanRow(s, i, i + 1, acc));
      ScanRowChecksOf(s, i, i + 1, acc);
      ScanChecksOf(s, i + 1, ScanRow(s, i, i + 1, acc));
      forall k | 0 <= k < |row + rest|
        ensures exists a, b :: 0 <= a < b < |s| && (row + rest)[k] == Check(s[a], s[b], DistSq(s[a], s[b]))
      {
        if k < |row| {
          assert (row + rest)[k] == row[k];
        } else {
          assert (row + rest)[k] == rest[k - |row|];
        }
      }
    }
  }

  /** The comparisons `strip_closest` performs, in order: each is of two
      entries of the strip and carries their distance. */
  function StripChecks(strip: seq<Point>, d: Dist): (cs: seq<Check>)
    ensures forall k :: 0 <= k < |cs| ==>
      IsPair(strip, cs[k].p, cs[k].q) && cs[k].dsq == DistSq(cs[k].p, cs[k].q)
  {
    var s := SortBy(strip, ByY);
    var cs := ScanChecks(s, 0, Best(None, d));
    ScanChecksOf(s, 0, Best(None, d));
    forall k | 0 <= k < |cs|
      ensures IsPair(strip, cs[k].p, cs[k].q) && cs[k].dsq == DistSq(cs[k].p, cs[k].q)
    {
      var a, b :| 0 <= a < b < |s| && cs[k] == Check(s[a], s[b], DistSq(s[a], s[b]));
      IndicesArePair(s, a, b);
    }
    cs
  }

  // ---------------------------------------------------------------------
  // The window: which pairs the early exit lets through.

  /** The best distance only shrinks along a row. */
  lemma {:induction false} RowShrinks(s: seq<Point>, i: int, j: int, acc: Best)
    requires 0 <= i < |s| && i < j <= |s|
    ensures AtMost(ScanRow(s, i, j, acc).dist, acc.dist)
    decreases |s| - j
  {
    if j < |s| && Below(s[j].y - s[i].y, acc.dist) {
      var acc' := Update(acc, s[i], s[j]);
      RowShrinks(s, i, j + 1, acc');
      DistOrder(ScanRow(s, i, j + 1, acc').dist, acc'.dist, acc.dist);
    } else {
      DistOrder(acc.dist, acc.dist, acc.dist);
    }
  }

  /** The best distance only shrinks along the scan. */
  lemma {:induction false} ScanShrinks(s: seq<Point>, i: int, acc: Best)
    requires 0 <= i <= |s|
    ensures AtMost(Scan(s, i, acc).dist, acc.dist)
    decreases |s| - i
  {
    if i < |s| {
      var acc' := ScanRow(s, i, i + 1, acc);
      RowShrinks(s, i, i + 1, acc);
      ScanShrinks(s, i + 1, acc');
      DistOrder(Scan(s, i + 1, acc').dist, acc'.dist, acc.dist);
    } else {
      DistOrder(acc.dist, acc.dist, acc.dist);
    }
  }

  /** `v < c` carries over to a smaller `v` and a larger distance. */
  lemma BelowMonotone(v: int, w: int, c: Dist, e: Dist)
    requires v <= w && Below(w, c) && AtMost(c, e)
    ensures Below(v, e)
  {
    if 0 <= v && e.Finite? {
      SquareMonotone(v, w);
    }
  }

  /** Every comparison is of two points closer than `d` in y. */
  ghost predicate InWindow(cs: seq<Check>, d: Dist)
  {
    forall k :: 0 <= k < |cs| ==> Below(cs[k].q.y - cs[k].p.y, d)
  }

  lemma {:induction false} RowInWindow(s: seq<Point>, i: int, j: int, acc: Best, d: Dist)
    requires 0 <= i < |s| && i < j <= |s|
    requires AtMost(acc.dist, d)
    ensures InWindow(ScanRowChecks(s, i, j, acc), d)
    decreases |s| - j
  {
    if j < |s| && Below(s[j].y - s[i].y, acc.dist) {
      var acc' := Update(acc, s[i], s[j]);
      var rest := ScanRowChecks(s, i, j + 1, acc');
      BelowMonotone(s[j].y - s[i].y, s[j].y - s[i].y, acc.dist, d);
      DistOrder(acc'.dist, acc.dist, d);
      RowInWindow(s, i, j + 1, acc', d);
      var cs: seq<Check> := [Check(s[i], s[j], DistSq(s[i], s[j]))] + rest;
      forall k | 0 <= k < |cs|
        ensures Below(cs[k].q.y - cs[k].p.y, d)
      {
        if k > 0 {
          assert cs[k] == rest[k - 1];
        }
      }
    }
  }

  lemma {:induction false} ScanInWindow(s: seq<Point>, i: int, acc: Best, d: Dist)
    requires 0 <= i <= |s|
    requires AtMost(acc.dist, d)
    ensures InWindow(ScanChecks(s, i, acc), d)
    decreases |s| - i
  {
    if i < |s| {
      var acc' := ScanRow(s, i, i + 1, acc);
      var row: seq<Check> := ScanRowChecks(s, i, i + 1, acc);
      var rest: seq<Check> := ScanChecks(s, i + 1, acc');
      RowInWindow(s, i, i + 1, acc, d);
      RowShrinks(s, i, i + 1, acc);
      DistOrder(acc'.dist, acc.dist, d);
      ScanInWindow(s, i + 1, acc', d);
      forall k | 0 <= k < |row + rest|
        ensures Below((row + rest)[k].q.y - (row + rest)[k].p.y, d)
      {
        if k < |row| {
          assert (row + rest)[k] == row[k];
        } else {
          assert (row + rest)[k] == rest[k - |row|];
        }
      }
    }
  }

  /** Row `i` compares `s[i]` with every later `s[b]` that is closer in y
      than a distance `fin` no larger than the row's final best. */
  lemma {:induction false} RowCovers(s: seq<Point>, i: int, j: int, acc: Best, b: int, fin: Dist)
    requires SortedBy(s, ByY)
    requires 0 <= i < j <= b < |s|
    requires AtMost(fin, ScanRow(s, i, j, acc).dist)
    requires Below(s[b].y - s[i].y, fin)
    ensures Check(s[i], s[b], DistSq(s[i], s[b])) in ScanRowChecks(s, i, j, acc)
    decreases |s| - j
  {
    RowShrinks(s, i, j, acc);
    DistOrder(fin, ScanRow(s, i, j, acc).dist, acc.dist);
    if j < b {
      assert Le(s[j], s[b], ByY);
    }
    BelowMonotone(s[j].y - s[i].y, s[b].y - s[i].y, fin, acc.dist);
    if j < b {
      RowCovers(s, i, j + 1, Update(acc, s[i], s[j]), b, fin);
    }
  }

  lemma {:induction false} ScanCovers(s: seq<Point>, i: int, acc: Best, a: int, b: int, fin: Dist)
    requires SortedBy(s, ByY)
    requires 0 <= i <= a < b < |s|
    requires AtMost(fin, Scan(s, i, acc).dist)
    requires Below(s[b].y - s[a].y, fin)
    ensures Check(s[a], s[b], DistSq(s[a], s[b])) in ScanChecks(s, i, acc)
    decreases |s| - i
  {
    var acc' := ScanRow(s, i, i + 1, acc);
    ScanShrinks(s, i + 1, acc');
    DistOrder(fin, Scan(s, i + 1, acc').dist, acc'.dist);
    if a == i {
      RowCovers(s, i, i + 1, acc, b, fin);
    } else {
      ScanCovers(s, i + 1, acc', a, b, fin);
    }
  }

  /** Every two entries of `s` closer in y than `fin` are compared. */
  ghost predicate CoversWindow(s: seq<Point>, cs: seq<Check>, fin: Dist)
  {
    forall a, b :: 0 <= a < b < |s| && Below(s[b].y - s[a].y, fin) ==>
      Check(s[a], s[b], DistSq(s[a], s[b])) in cs
  }

  lemma ScanWindow(s: seq<Point>, d: Dist, cs: seq<Check>, fin: Dist)
    requires SortedBy(s, ByY)
    requires cs == ScanChecks(s, 0, Best(None, d))
    requires fin == Scan(s, 0, Best(None, d)).dist
    ensures InWindow(cs, d) && CoversWindow(s, cs, fin)
  {
    DistOrder(d, d, d);
    ScanInWindow(s, 0, Best(None, d), d);
    DistOrder(fin, fin, fin);
    forall a, b | 0 <= a < b < |s| && Below(s[b].y - s[a].y, fin)
      ensures Check(s[a], s[b], DistSq(s[a], s[b])) in cs
    {
      ScanCovers(s, 0, Best(None, d), a, b, fin);
    }
  }

  /** The window of `strip_closest`: with the strip in y order, every
      comparison is of two points less than `d` apart in y, and every two
      points less than the final distance apart in y are compared. */
  lemma StripWindow(strip: seq<Point>, d: Dist)
    ensures InWindow(StripChecks(strip, d), d)
    ensures CoversWindow(SortBy(strip, ByY), StripChecks(strip, d), StripClosest(strip, d).dist)
  {
    StripUnfold(strip, d);
    ScanWindow(SortBy(strip, ByY), d, StripChecks(strip, d), StripClosest(strip, d).dist);
  }

  lemma StripUnfold(strip: seq<Point>, d: Dist)
    ensures SortedBy(SortBy(strip, ByY), ByY)
    ensures StripChecks(strip, d) == ScanChecks(SortBy(strip, ByY), 0, Best(None, d))
    ensures StripClosest(strip, d) == Scan(SortBy(strip, ByY), 0, Best(None, d))
  {
  }
}
